=== FILE: README.md ===
# glympse-adapter core, modelled in Dafny

This project models four parts of the glympse-adapter JavaScript library and proves properties of them:

- **Public groups** (`PublicGroup`). One group per name keeps a list of tracked users (member id and invite code). It fetches its full member list once, then polls for events from a cursor. From each response it reports which invites were added, removed or swapped. An events response is first compressed to the last invite/swap/leave per member. A full member list replaces the membership. Three demo group names are answered from a local fixture and never polled.
- **The group registry** (`PublicGroupController`). Adds wait until an account is known. A name is loaded only once. Every non-demo group shares one 15-second poll timer. Logout drops the account and stops the timer. Group notices are forwarded to the owner. Org-object lookups are validated before any fetch.
- **The adapter** (`GlympseAdapter`, with `Invites`, `Channel` and `Api`). `run()` builds the `map`/`cards`/`ext` API surface. It queues a `Connected` manifest for the host and cleans the configured invite codes. It then starts either the cards or the viewer, and reports progress as it goes. Messages to the host wait in a queue until the host's handshake. Messages to the owning controller can be hidden by `hideEvents`/`hideUpdates`.
- **Image sniffing** (`Image`). `getImageType` reads the first two bytes of a buffer.

Everything is a pure function. Each step returns the new state and the effects it causes, in order: fetches, timer starts and stops, and messages to the host, the controller or the components. Clocks, fetch results, timer ticks and the host handshake come back in as inputs. JavaScript's `undefined`/`null` is `None`. A falsy string is `None` or `Some("")`, and `Common.Truthy` decides truthiness the way the source's `if (x)` does.

Files: `common.dfy` (options, truthiness, ASCII case mapping, `split`/`join` with their round trips), `image.dfy`, `public_group.dfy`, `public_group_controller.dfy`, `invites.dfy`, `channel.dfy`, `api.dfy`, `glympse_adapter.dfy`.

Most operations have a reference definition or an invariant next to them, plus a lemma connecting the two. Examples:
- Compression against "last event per member".
- Applying compressed events against applying every event to a membership map.
- The full-list sync against a map-level definition and list-order reports.
- The registry's `Valid` invariant, preserved by every input.
- The channel's first-in, first-out delivery.
- API tables against the lists they are built from.
- The hide flags shown to affect only controller messages.

## Model

| member | source | states |
|---|---|---|
| Image.GetImageType | app/src/lib/image.js:7-44 | A buffer shorter than five bytes raises a RangeError (the 5-byte `DataView`); any longer buffer yields a type or null. |
| Image.ToHex | app/src/lib/image.js:11-13 | `toString(16)` of a byte is one or two digits from `0123456789abcdef` that read back as the byte. It has two digits exactly when the byte is at least 16, and a leading `0` only for zero (no padding). |
| Image.GetImageTypeIsMagic | app/src/lib/image.js:11-42 | The dispatch on the concatenated unpadded hex strings equals the magic-number table on the first two bytes: 89 50 PNG, 47 49 GIF, 42 4D BMP, FF D8 JPEG, anything else null. A match needs both bytes to be at least 0x10, so the missing padding never confuses two byte pairs. |
| PublicGroup.NewGroup | app/src/adapter/models/PublicGroup.js:16-37 | A new group is not loaded, its cursor is 0, it tracks no users and keeps its name and account. It is a demo group exactly when its lower-cased name is one of the three demo names. |
| PublicGroup.FindUser | app/src/adapter/models/PublicGroup.js:370-383 | Finds the last user with the id. It is absent exactly when no user has the id. |
| PublicGroup.FindUserInMap | app/src/adapter/models/PublicGroup.js:370-383 | The lookup agrees with the membership map (a later entry wins): absent exactly when the id is not a member, otherwise it yields the member's invite. |
| PublicGroup.GetInvites | app/src/adapter/models/PublicGroup.js:46-54 | One invite per tracked user, in reverse user order (the loop's invariant). |
| PublicGroup.Request | app/src/adapter/models/PublicGroup.js:99-130 | The request is answered locally exactly for demo groups. A demo group never fetches: it schedules its fixture after 200 ms until loaded, then does nothing. Any other group fetches the full list with branding (on behalf of its account) until loaded, and events from `next` afterwards. |
| PublicGroup.CompressIsLastEvents | app/src/adapter/models/PublicGroup.js:197-226 | The clean-up loop keeps exactly the last invite/swap/leave item of each member, ordered by where those last items occur, with no member twice. |
| PublicGroup.LastEventsMembers | app/src/adapter/models/PublicGroup.js:201-226 | A member appears in the cleaned list exactly when some invite/swap/leave item of the response mentions them. |
| PublicGroup.ApplyEventMeaning | app/src/adapter/models/PublicGroup.js:234-285 | One event on the membership map. Invite and swap set the member's invite: an unknown member is reported as added, a changed invite as a swap, and the same invite is not reported. Leave removes a tracked member and reports their invite; other kinds change nothing. |
| PublicGroup.ApplyItemsMeaning | app/src/adapter/models/PublicGroup.js:192-287 | Compress-then-apply leaves the same membership as applying every item in order, so compression loses nothing. The delta is each member's last event judged against the membership before the response. User ids stay distinct. |
| PublicGroup.RejoinWithinOneResponse | app/src/adapter/models/PublicGroup.js:197-266 | An unknown member invited with X, leaving, then invited with Y in one response ends tracked with Y. The report is a single addition of Y. |
| PublicGroup.ParseGroupList | app/src/adapter/models/PublicGroup.js:294-368 | The cursor becomes `events + 1` and the last-update time is the response time. An absent `members` leaves users and delta untouched. Ids stay distinct; name, demo flag, loaded flag and account are kept. |
| PublicGroup.FullListMeaning | app/src/adapter/models/PublicGroup.js:308-367 | After a full list, a listed id is tracked with the listed invite (even a falsy one) when it was tracked before or its invite is truthy. No other id is tracked. Removed: the invites of tracked users the list omits. Swapped: the tracked users the list gives another invite. Added: the truthy invites of listed untracked members. All three are in the loops' reverse order. |
| PublicGroup.AbsorbUpdate | app/src/adapter/models/PublicGroup.js:168-292 | A failed response changes nothing and reports nothing. A successful events response sets the cursor to `events + 1`, or to 0 when `events` is 0. A group-typed response sets it to `events + 1`. Both record the response time and keep ids distinct. |
| PublicGroup.StatusNotices | app/src/adapter/models/PublicGroup.js:132-147 | A `GroupStatus` notice is sent exactly when some invite was added, removed or swapped, and it carries the delta. |
| PublicGroup.ProcessInitial | app/src/adapter/models/PublicGroup.js:150-165 | The group is loaded even after a failure. On success the group is the full-list sync's group. A `GroupStatus` carrying the sync's delta comes first exactly when the delta reports a change. The last notice is `GroupLoaded` with the status and, after a change, the same delta. A failure sends only `GroupLoaded` with status false and changes nothing else. |
| PublicGroup.InitialLoadMeaning | app/src/adapter/models/PublicGroup.js:150-165 | A successful initial load of a member list moves the cursor to `events + 1`. The membership becomes the full-list map. Two notices are sent exactly when an invite was added, removed or swapped: the `GroupStatus` lists them in the loops' reverse order, and `GroupLoaded` repeats them. |
| PublicGroup.ProcessUpdate | app/src/adapter/models/PublicGroup.js:168-292 | The group is loaded afterwards. At most one notice is sent: a `GroupStatus` carrying exactly the delta of the absorbed response, and only when that delta reports a change. A failure sends nothing and keeps the users. |
| PublicGroup.UpdateMeaning | app/src/adapter/models/PublicGroup.js:168-292 | A successful events response leaves the membership as if every event had been applied in order. Its status notice carries the delta computed from the last event per member. |
| PublicGroupController.Init | app/src/adapter/PublicGroupController.js:17-33 | A new registry holds the configured account and has no groups, no queue and nothing to poll. Its timer is off and the registry invariant holds. |
| PublicGroupController.StartPolling | app/src/adapter/PublicGroupController.js:153-157 | The group joins the poll list. The timer is started (15000 ms) exactly when the list was empty. |
| PublicGroupController.LoadGroup | app/src/adapter/PublicGroupController.js:113-158 | An already registered name changes nothing and does nothing. A new name is registered and other groups stay untouched. A header seeds the group as a completed initial load, forwards its notices and polls it. A bare demo name schedules its fixture, fetches nothing and is not polled. Any other bare name starts with its initial fetch and is polled. The timer starts exactly when the poll list goes from empty to one entry. The invariant is kept: polled names are registered, none twice, a running timer has something to poll, and group names match their keys. |
| PublicGroupController.LoadHeader | app/src/adapter/PublicGroupController.js:136-157 | A group given with its header is registered as the initial-load result of its member list. It joins the poll list, and its notices go out before any timer start. |
| PublicGroupController.LoadName | app/src/adapter/PublicGroupController.js:136-157 | A bare name is registered as an empty group. A demo name only schedules its fixture. Any other name issues its initial fetch, joins the poll list, and starts the timer if the list was empty. |
| PublicGroupController.Cmd | app/src/adapter/PublicGroupController.js:76-106 | `addGroup` without a truthy account only queues the request; with one it loads the group. `getOrgObjects` leaves the registry alone and issues exactly the org-objects request for its parameters and the current account. An unknown command is ignored. |
| PublicGroupController.OrgObjectsRequest | app/src/adapter/PublicGroupController.js:166-203 | A missing or zero `orgId` is answered with the error message, and only those are. The demo org id -999 gets its fixture. Any other id gets exactly one fetch for that id, on behalf of the current account. The fetch carries `objType` only when it is truthy. |
| PublicGroupController.NotifyMsg | app/src/adapter/PublicGroupController.js:42-74 | A login records the account. With a truthy account the queue is replayed through `loadGroup` entry by entry, on behalf of the new account: the result and effects are exactly the replay's, every queued group is registered and the queue emptied. Earlier groups are unchanged, the poll list only grows at its end, and a timer that had something to poll is kept. With a falsy account nothing else happens. Logout clears the account, stops the timer (a stop effect only if it ran) and changes nothing else. Group notices are forwarded unchanged; unknown messages are ignored. |
| PublicGroupController.LoadAll | app/src/adapter/PublicGroupController.js:214-229 | Replaying the queue registers every queued name and leaves earlier groups as they were. If something was already being polled, it neither starts nor changes the timer. |
| PublicGroupController.PollRequests | app/src/adapter/PublicGroupController.js:205-212 | A tick's work belongs only to polled groups. Only non-demo groups fetch, and every polled non-demo group fetches. |
| PublicGroupController.PollRequestsInOrder | app/src/adapter/PublicGroupController.js:205-212 | The poll list is walked in order with one `request()` per group: the work of each polled name sits between the work of the names before it and the names after it. |
| PublicGroupController.Complete | app/src/adapter/PublicGroupController.js:198-212 | A fetch result goes to the registered group of its name, which processes it as an initial or an update response. The group is replaced by the result and its notices are forwarded. A result for an unknown name does nothing. An org-objects result is forwarded as is. A tick changes no state: with the timer off it does nothing, with the timer on it issues the poll requests. No completion adds or drops a group or changes the poll list, account or timer, and each keeps the invariant. |
| PublicGroupController.LoadAllFetchesInOrder | app/src/adapter/PublicGroupController.js:222-226 | Loading a queue of new non-demo names issues exactly one initial fetch per name, in queue order, and no other group-level work. |
| PublicGroupController.DeferredAddsFetchOnLogin | app/src/adapter/PublicGroupController.js:214-229 | Adds made before login are fetched when a truthy account logs in: exactly once each, in the order they were added, on behalf of that account. |
| PublicGroupController.LogoutStopsPollingForGood | app/src/adapter/PublicGroupController.js:231-239 | Logout keeps the poll list, so neither a later login nor a later add starts the timer again. |
| Invites.SplitMulti | app/src/GlympseAdapter.js:286-289 | A falsy value comes back unchanged. Any other string becomes pieces without `;` that join back to the string. |
| Invites.CleanInvite | app/src/GlympseAdapter.js:291-308 | An invite is upper-cased. A six- or eight-character code gets a hyphen at its midpoint, and removing that hyphen gives back the upper-cased code. |
| Invites.CleanInvites | app/src/GlympseAdapter.js:291-308 | The list keeps its length and each entry is cleaned in place. |
| Invites.CleanInvitesIdempotent | app/src/GlympseAdapter.js:291-308 | Cleaning a cleaned list changes nothing. |
| Channel.Send | app/src/GlympseAdapter.js:384-394 | Before the handshake a message is appended to the queue and nothing goes out. After it, the message goes out at once. |
| Channel.Handshake | app/src/GlympseAdapter.js:365-375 | The handshake sends the whole queue in order, empties it and marks the port connected. |
| Channel.Fifo | app/src/GlympseAdapter.js:365-394 | Messages sent before and after the handshake each reach the host once, in the order they were sent. |
| Api.TableMeaning | app/src/GlympseAdapter.js:117-151 | A namespace table holds exactly its own, request and local-only entries. Requests and local-only entries forward to the namespace's component under their own name. Its own entries stay its own unless a request shadows them. Local-only entries are callable but not listed. |
| Api.ManifestInvite | app/src/GlympseAdapter.js:102 | The manifest's invite is the viewer's invite list up to its first comma, or `???` when that list is falsy. |
| Api.Build | app/src/GlympseAdapter.js:102-165 | The manifest lists, per lower-cased namespace id (`map`, `cards`), its own entries followed by its requests. The `ext` list exists exactly when custom interfaces are configured; the `ext` table is empty without them. Host requests route `ext` locally and `map`/`cards` to their components. |
| Api.CallEntry | app/src/GlympseAdapter.js:315-321 | A forwarded call never returns a falsy value: it returns the component's result when that is truthy, and `true` otherwise. |
| Api.CallRequest | app/src/GlympseAdapter.js:323-329 | A host request is answered like the local entry: the component's truthy result, or `true` in place of a falsy one. |
| Api.RequestMatchesEntry | app/src/GlympseAdapter.js:323-329 | A host request `{id, args}` for a request entry reaches the component exactly as the local entry of that name does. |
| GlympseAdapter.New | app/src/GlympseAdapter.js:31-50 | A new adapter is uninitialized, not connected and has an empty queue; the adapter invariant holds. |
| GlympseAdapter.ToCtl | app/src/GlympseAdapter.js:336-344 | The controller gets the message unless it is held back: by `hideEvents` for an event message, by `hideUpdates` for any other. |
| GlympseAdapter.SendHost | app/src/GlympseAdapter.js:384-394 | Only the channel changes. The message goes out at once when connected and is queued otherwise. |
| GlympseAdapter.ProgressMessage | app/src/GlympseAdapter.js:346-351 | A progress report carries the total and the incremented counter, capped at the total, so it never exceeds the total. |
| GlympseAdapter.Run | app/src/GlympseAdapter.js:76-218 | A second `run()` does nothing. The first opens the channel before anything else and keeps the adapter invariant: the progress total is the base total plus 5 per later card, no card is counted twice, and no progress report exceeds its total. A falsy `t` is read as no invites (see Findings). |
| GlympseAdapter.RunStarts | app/src/GlympseAdapter.js:91-202 | The first `run()` reports one step of a total of 7 with a card and 3 otherwise. It keeps the cleaned Glympse invites and installs the API surface built from the configuration. |
| GlympseAdapter.RunQueuesManifest | app/src/GlympseAdapter.js:165-202 | Before the handshake, the first `run()` leaves the host's queue with the `Connected` manifest followed by the first progress report. |
| GlympseAdapter.RunStartsCardLast | app/src/GlympseAdapter.js:184-208 | With a card configured, the last thing `run()` does is start the cards with the cleaned card code. |
| GlympseAdapter.FinishCtl | app/src/GlympseAdapter.js:194-202 | After the invites are read, the controller hears two events, each held back when events are hidden: `AdapterInit` with the card flag (`card != null`), the cleaned invites and the split `pg`/`twt`/`g`, then the first progress report, step 1 of the base total. |
| GlympseAdapter.FinishLoad | app/src/GlympseAdapter.js:204-216 | Without a card, the last effect starts the viewer with the joined invites and the configured `pg`/`twt`/`g` exactly when the joined invites are non-empty or one of those lists is truthy. Otherwise neither the viewer nor the cards are started. |
| GlympseAdapter.RunTellsController | app/src/GlympseAdapter.js:190-202 | Everything the controller hears from the first `run()`: the `AdapterInit` announcement (card flag, cleaned Glympse invites, split lists) and then the progress report of step 1 of the base total. Each is sent only when events are not hidden. |
| GlympseAdapter.RunLoadsViewer | app/src/GlympseAdapter.js:190-216 | Without a card, the first `run()` ends by starting the viewer with the joined cleaned invites and the configured lists exactly when any of them is there to show. Otherwise it starts no component at all. |
| GlympseAdapter.RunAsWrittenThrows | app/src/GlympseAdapter.js:184-195 | As written, `run()` without a truthy `t` throws after opening the channel and setting the card list. It announces nothing and starts nothing. The adapter it leaves keeps its old progress counters and only the `Connected` manifest in its queue, still satisfies the channel invariant, and will not run again. |
| GlympseAdapter.ThrownStillConnects | app/src/GlympseAdapter.js:184-192 | The host can still connect to an adapter whose `run()` threw. The handshake delivers only the manifest, then calls the `initialize` callback if one is configured. |
| GlympseAdapter.RunAsWrittenAgrees | app/src/GlympseAdapter.js:184-217 | With a truthy `t`, the code as written and the corrected `run()` behave identically. |
| GlympseAdapter.CardOnlyStartThrows | app/src/GlympseAdapter.js:184-192 | For a configuration with only `card: 'abc123'`, `run()` as written throws without starting the card. It leaves `ABC-123` recorded without the progress total that goes with it, so the adapter's invariant is broken. |
| GlympseAdapter.CardOnlyStart | app/src/GlympseAdapter.js:184-208 | For the same configuration, the corrected `run()` ends by starting the card as `ABC-123`. |
| GlympseAdapter.ComponentEvent | app/src/GlympseAdapter.js:232-242 | Each of the six component events advances the counter by one and leaves the total and cards unchanged. The host side is the progress report and then the event, sent through the channel: delivered in that order when connected, appended to the queue otherwise. The controller hears the progress report and then the event, each only when events are not hidden. |
| GlympseAdapter.CtlTwo | app/src/GlympseAdapter.js:239-240 | A progress report followed by an event reach the controller as those two messages in that order, each held back by `hideEvents`. |
| GlympseAdapter.AddCard | app/src/GlympseAdapter.js:247-256 | A `DataUpdate` for an unseen card adds 5 to the total, records the card once and restarts the cards with the longer list. The controller hears of it unless updates are hidden. |
| GlympseAdapter.AddCardHost | app/src/GlympseAdapter.js:249-256 | On the host side a new card is its progress report, against the larger total, sent through the channel, followed by the cards restart. |
| GlympseAdapter.AddCardCtl | app/src/GlympseAdapter.js:251-255 | On the controller side a new card is the `AdapterInit` card notice, held back by `hideUpdates`, then its progress report against the larger total, held back by `hideEvents`. The cards restart is not a controller message. |
| GlympseAdapter.SendEventCtl | app/src/GlympseAdapter.js:336-357 | `sendEvent` gives the controller the message alone, and nothing when events are hidden. |
| GlympseAdapter.SendEventHost | app/src/GlympseAdapter.js:353-357 | `sendEvent` reaches the host exactly as a send through the channel: out at once when connected, queued otherwise. |
| GlympseAdapter.DataEvent | app/src/GlympseAdapter.js:244-261 | Only a truthy, unseen `ref` changes the cards and the total; any other `DataUpdate` is just passed on. On the host side a new card gives its progress report, the cards restart, then the `DataUpdate` itself. Any other update gives just the `DataUpdate`. Both go through the channel. On the controller side, a new card is the card notice (held back by `hideUpdates`), then its progress report, then the `DataUpdate` (both held back by `hideEvents`). Any other update is just the `DataUpdate`, held back by `hideEvents`. |
| GlympseAdapter.NewCardCtl | app/src/GlympseAdapter.js:244-259 | For a new card the controller hears, in order, the card notice, the progress report against the larger total and the update itself, each gated by its own flag. |
| GlympseAdapter.Notify | app/src/GlympseAdapter.js:228-271 | `notify` keeps the invariant: the total is base plus 5 per later card, and no card is counted twice. The total never decreases, no progress report exceeds its total, and unknown messages are ignored. |
| GlympseAdapter.InfoUpdate | app/src/GlympseAdapter.js:273-279 | A state update reaches the controller exactly when updates are not hidden. It reaches the host at once exactly when connected, and is queued otherwise. |
| GlympseAdapter.Handshake | app/src/GlympseAdapter.js:365-382 | The handshake sends the queue in order, then calls the configured `initialize` callback with the port name. |
| GlympseAdapter.ConnectedComesFirst | app/src/GlympseAdapter.js:167-202 | After `run()`, the host's first message at the handshake is the `Connected` manifest, followed by the first progress report. |
| GlympseAdapter.GetValue | app/src/GlympseAdapter.js:411-419 | Before `run()`, `getValue` answers `NOT_INITIALIZED`; afterwards it answers the viewer's current value. |
| GlympseAdapter.NotifyIgnoresHideFlags | app/src/GlympseAdapter.js:336-357 | The hide flags gate only controller messages. The adapter state and everything sent to the host or the components are the same whatever the flags say. |

## Left out

- ASCII only: `toUpperCase`/`toLowerCase` are modelled on ASCII letters. Full Unicode case mapping can change a string's length and is not modelled.
- No network, timers or host: fetches, timers, the host channel (Oasis), jQuery and the viewer/cards components are effects or inputs. Their internals (`ViewerMonitor`, `CardsController`, `cmd`, `getCurrentValue`) are parameters or opaque.
- `Date.now()` is an input (`now`, `time`).
- `encodeURIComponent` of group names and object types, URL assembly and service roots are left out, as are the `dbg` logging and the log-only handlers `processExternal` and `setUserInfo`.
- Demo data: the demo group fixtures, `demoDriversCount` and the demo org fixture's contents are left out. A demo group's fixture arrives as an ordinary successful full-list result; the demo org answer is a tag.
- Object-prototype keys: names such as `toString` would hit the prototype in the `groups`/`cDemoGroups` lookups. The model uses plain maps and sets.
- Response values: a missing `events` in a full-list response (which would make the cursor `NaN`) and `NaN` org ids are not modelled. `events` is always an integer.
- Absent and empty `items` are the same: both apply no events.
- Branding: a group response's `branding` is not used by the group (the branch at PublicGroup.js:303-306 is empty). It still travels to the owner inside the forwarded `GroupLoaded` result; see the next line.
- Notice payloads: `GroupStatus` and `GroupLoaded` carry only the group name, status, time and the added/removed/swapped lists. The source forwards the whole fetch `result` object (PublicGroup.js:132-146, 164), including the response body and its branding. The model does not carry the response body.
- `loadViewer`'s jQuery plugin call, `getViewer`, `cfgViewer.services`, and `imageScale`/`imageInfo`/`loadDataArrayByUrl` in `lib/image.js` are not part of this model.
- GlympseAdapter.Handshake: the handshake callback exists only after `run()` registers it, so it is stated for initialized adapters.
- GlympseAdapter.Notify: before `run()`, a `DataUpdate` for a new card makes the source throw at `cardsController.init` (app/src/GlympseAdapter.js:255), because the cards controller does not exist yet. The throw also skips `sendEvent` at line 259, so neither the host nor the controller gets the `DataUpdate` and nothing extra is queued. The model does not throw: it emits the `InitCards` effect, and it sends or queues the `DataUpdate` for the host and tells the controller of it. The larger total, the card list, the card notice and the progress report happen before the throw, and the model matches the source on those.
- PublicGroup.FullListMeaning: stated for user lists and member lists without repeated ids (the case every reachable state has for users). A member list that repeats an id is modelled in `ParseGroupList` but not characterised.
- PublicGroupController.DeferredAddsFetchOnLogin: stated for queues of distinct, new, non-demo bare names. For the rest, `LoadGroup`'s contract applies to each replayed entry: a registered name does nothing, and a bare demo name neither fetches nor is polled.
- Falsy invites: invites are plain strings, and `""` stands for every falsy invite. The source's strict comparisons (`===` at PublicGroup.js:247, `!==` at PublicGroup.js:325) tell `null` from `undefined` and report a change between the two as a swap. The model does not.

## Findings

| source | as written | input that shows it | evidently intended | confidence | as-written member | corrected member |
|---|---|---|---|---|---|---|
| app/src/GlympseAdapter.js:190-192 | `cleanInvites(splitMulti(t))`: for a falsy `t`, `splitMulti` returns it unchanged. `cleanInvites` then reads `.length` of `undefined`, or returns `""`, whose `.join` is not a function. Either way `run()` throws after marking itself initialized, so the adapter never starts. | `cfg.adapter = { card: 'abc123' }` with no `t` | A falsy `t` means no Glympse invites (`[]`), as the later `t \|\| pg \|\| g \|\| twt` test (line 209) expects | high; not executed | GlympseAdapter.RunAsWritten, shown by GlympseAdapter.RunAsWrittenThrows and GlympseAdapter.CardOnlyStartThrows | GlympseAdapter.Run, with GlympseAdapter.CardOnlyStart |

=== FILE: api.dfy ===
/** The API surface `run()` builds (GlympseAdapter.js): the `map`, `cards`
    and `ext` entry tables, the manifest sent to the host in the
    `Connected` message, the host-request routes, and what a forwarded
    call returns. */
module Api {
  import opened Common

  /** The components calls are forwarded to: the viewer monitor and the
      cards controller. */
  datatype Target = Viewer | Cards

  /** What an entry does when called. */
  datatype Handler =
    | Internal(name: string)             // a function of the adapter itself
    | Forward(target: Target, op: string) // passes `(op, data)` to the target
    | Custom(name: string)               // a user-supplied interface

  /** One namespace: its id, the component behind it, the adapter's own
      entries, the entries it offers the host, and the entries installed
      for local callers only. */
  datatype Namespace = Namespace(
    id: string,
    target: Target,
    internal: seq<string>,
    requests: seq<string>,
    local: seq<string>)

  /** The request lists of the two namespaces (defined outside the adapter). */
  datatype Defines = Defines(
    mapRequests: seq<string>,
    mapLocal: seq<string>,
    cardsRequests: seq<string>,
    cardsLocal: seq<string>)

  /** The settings of the `Connected` message. */
  datatype Manifest = Manifest(invite: string, apis: map<string, seq<string>>, ext: Option<seq<string>>)

  /** How the host's requests are dispatched, by namespace key. */
  datatype Route = External | ToTarget(target: Target)

  datatype Surface = Surface(
    tables: map<string, map<string, Handler>>,
    ext: map<string, Handler>,
    routes: map<string, Route>,
    manifest: Manifest)

  const NoInvite := "???"

  /** The namespaces in the order they are built: `getValue` is the only
      entry of the adapter's own. */
  function Namespaces(d: Defines): seq<Namespace>
  {
    [Namespace("MAP", Viewer, ["getValue"], d.mapRequests, d.mapLocal),
     Namespace("CARDS", Cards, [], d.cardsRequests, d.cardsLocal)]
  }

  /** Installs an entry per name, a later name overwriting an earlier one. */
  function Install(t: map<string, Handler>, names: seq<string>, h: string -> Handler): map<string, Handler>
    decreases |names|
  {
    if |names| == 0 then t else Install(t[names[0] := h(names[0])], names[1..], h)
  }

  lemma {:induction false} InstallMeaning(t: map<string, Handler>, names: seq<string>, h: string -> Handler)
    ensures Install(t, names, h).Keys == t.Keys + set n | n in names
    ensures forall n :: n in names ==> Install(t, names, h)[n] == h(n)
    ensures forall n :: n in t && n !in names ==> Install(t, names, h)[n] == t[n]
    decreases |names|
  {
    if |names| > 0 {
      var t' := t[names[0] := h(names[0])];
      InstallMeaning(t', names[1..], h);
      assert forall n :: n in names <==> n == names[0] || n in names[1..];
    }
  }

  /** The entries a namespace lists for the host. */
  function Listed(ns: Namespace): seq<string>
  {
    ns.internal + ns.requests
  }

  /** A namespace's entry table: its own entries, then the forwarded
      requests, then the forwarded local-only requests. */
  function Table(ns: Namespace): map<string, Handler>
  {
    var own := Install(map[], ns.internal, n => Internal(n));
    var listed := Install(own, ns.requests, n => Forward(ns.target, n));
    Install(listed, ns.local, n => Forward(ns.target, n))
  }

  /** Every listed or local entry is callable; requests, local ones
      included, forward to the namespace's component under their own name;
      the adapter's own entries stay its own unless a request shadows them;
      local-only entries are callable but not announced. */
  lemma TableMeaning(ns: Namespace)
    ensures Table(ns).Keys == (set n | n in ns.internal) + (set n | n in ns.requests) + (set n | n in ns.local)
    ensures forall n :: n in ns.requests || n in ns.local ==> Table(ns)[n] == Forward(ns.target, n)
    ensures forall n :: n in ns.internal && n !in ns.requests && n !in ns.local ==> Table(ns)[n] == Internal(n)
    ensures forall n :: n in Table(ns) <==> n in Listed(ns) || n in ns.local
  {
    var own := Install(map[], ns.internal, n => Internal(n));
    InstallMeaning(map[], ns.internal, n => Internal(n));
    var listed := Install(own, ns.requests, n => Forward(ns.target, n));
    InstallMeaning(own, ns.requests, n => Forward(ns.target, n));
    InstallMeaning(listed, ns.local, n => Forward(ns.target, n));
    assert forall n :: n in Listed(ns) <==> n in ns.internal || n in ns.requests;
  }

  /** The first comma-separated token of the viewer's invite list, or a
      placeholder when there is none. */
  function ManifestInvite(viewerT: Option<string>): (inv: string)
    ensures !Truthy(viewerT) ==> inv == NoInvite
    ensures Truthy(viewerT) ==> inv <= viewerT.value && ',' !in inv
    ensures Truthy(viewerT) && |inv| < |viewerT.value| ==> viewerT.value[|inv|] == ','
  {
    if Truthy(viewerT) then
      var t := viewerT.value;
      var parts := Split(t, ',');
      assert parts[0] <= t && (|parts[0]| < |t| ==> t[|parts[0]|] == ',') by {
        if ',' in t {
          var k := IndexOf(t, ',');
          assert parts[0] == t[..k];
        }
      }
      parts[0]
    else NoInvite
  }

  /** The surface `run()` builds from the request lists, the viewer's
      invite list and the user-supplied interfaces. */
  function Build(d: Defines, viewerT: Option<string>, interfaces: Option<seq<string>>): (s: Surface)
    ensures s.manifest.invite == ManifestInvite(viewerT)
    ensures s.manifest.apis.Keys == s.tables.Keys == {"map", "cards"}
    ensures forall ns :: ns in Namespaces(d) ==>
      Lower(ns.id) in s.tables && s.tables[Lower(ns.id)] == Table(ns) && s.manifest.apis[Lower(ns.id)] == Listed(ns)
    ensures s.manifest.ext.Some? <==> interfaces.Some?
    ensures interfaces.Some? ==> s.manifest.ext == interfaces
    ensures s.ext.Keys == if interfaces.Some? then set n | n in interfaces.value else {}
    ensures forall n :: n in s.ext ==> s.ext[n] == Custom(n)
    ensures s.routes == map["ext" := External, "map" := ToTarget(Viewer), "cards" := ToTarget(Cards)]
  {
    var svcs := Namespaces(d);
    var mapNs, cardsNs := svcs[0], svcs[1];
    assert Lower(mapNs.id) == "map" && Lower(cardsNs.id) == "cards";
    var tables := map[Lower(mapNs.id) := Table(mapNs), Lower(cardsNs.id) := Table(cardsNs)];
    var apis := map[Lower(mapNs.id) := Listed(mapNs), Lower(cardsNs.id) := Listed(cardsNs)];
    var routes := map["ext" := External, Lower(mapNs.id) := ToTarget(mapNs.target), Lower(cardsNs.id) := ToTarget(cardsNs.target)];
    var ext :=
      if interfaces.Some? then
        InstallMeaning(map[], interfaces.value, n => Custom(n));
        Install(map[], interfaces.value, n => Custom(n))
      else map[];
    Surface(tables, ext, routes, Manifest(ManifestInvite(viewerT), apis, interfaces))
  }

  /** The values a call can return, with JavaScript truthiness. */
  datatype Value = Undefined | Null | Bool(b: bool) | Number(n: int) | Text(s: string) | Object(id: nat)

  predicate TruthyValue(v: Value)
  {
    !(v.Undefined? || v.Null? || v == Bool(false) || v == Number(0) || v == Text(""))
  }

  /** `v || true`: a forwarded call never reports a falsy result. */
  function OrTrue(v: Value): (r: Value)
    ensures TruthyValue(r)
    ensures TruthyValue(v) ==> r == v
    ensures !TruthyValue(v) ==> r == Bool(true)
  {
    if TruthyValue(v) then v else Bool(true)
  }

  /** A call of a forwarded entry: the component's `cmd(op, data)`. */
  function CallEntry(target: Target, op: string, data: Value, cmd: (Target, string, Value) -> Value): (r: Value)
    ensures TruthyValue(r)
    ensures TruthyValue(cmd(target, op, data)) ==> r == cmd(target, op, data)
    ensures !TruthyValue(cmd(target, op, data)) ==> r == Bool(true)
  {
    OrTrue(cmd(target, op, data))
  }

  /** A host request `{ id, args }` routed to a namespace's component. */
  datatype HostRequest = HostRequest(id: string, args: Value)

  function CallRequest(target: Target, req: HostRequest, cmd: (Target, string, Value) -> Value): (r: Value)
    ensures TruthyValue(r)
    ensures TruthyValue(cmd(target, req.id, req.args)) ==> r == cmd(target, req.id, req.args)
    ensures !TruthyValue(cmd(target, req.id, req.args)) ==> r == Bool(true)
  {
    OrTrue(cmd(target, req.id, req.args))
  }

  /** A host request reaches the component exactly as the local entry of
      the same name does. */
  lemma RequestMatchesEntry(ns: Namespace, req: HostRequest, cmd: (Target, string, Value) -> Value)
    requires req.id in ns.requests || req.id in ns.local
    ensures req.id in Table(ns) && Table(ns)[req.id] == Forward(ns.target, req.id)
    ensures CallRequest(ns.target, req, cmd) == CallEntry(ns.target, req.id, req.args, cmd)
  {
    TableMeaning(ns);
  }
}

=== FILE: channel.dfy ===
/** The adapter's side of the host channel (`sendOasisMessage` and
    `oasisInitialize` in GlympseAdapter.js): until the host completes the
    handshake every message waits in a queue; the handshake sends the queue
    in order and from then on messages go straight out. */
module Channel {

  datatype Port<M> = Port(connected: bool, queue: seq<M>)

  /** A port after an operation, and the messages it put on the wire. */
  datatype Sent<M> = Sent(port: Port<M>, out: seq<M>)

  /** A connected port never holds messages back. */
  predicate Valid<M>(p: Port<M>)
  {
    p.connected ==> p.queue == []
  }

  function Closed<M>(): (p: Port<M>)
    ensures Valid(p) && !p.connected && p.queue == []
  {
    Port(false, [])
  }

  function Send<M>(p: Port<M>, m: M): (r: Sent<M>)
    ensures Valid(p) ==> Valid(r.port)
    ensures r.port.connected == p.connected
    ensures p.connected ==> r.out == [m] && r.port == p
    ensures !p.connected ==> r.out == [] && r.port.queue == p.queue + [m]
  {
    if p.connected then Sent(p, [m]) else Sent(p.(queue := p.queue + [m]), [])
  }

  /** The handshake: everything queued goes out, first queued first. */
  function Handshake<M>(p: Port<M>): (r: Sent<M>)
    ensures Valid(r.port) && r.port.connected
    ensures r.out == p.queue
  {
    Sent(Port(true, []), p.queue)
  }

  /** Several sends in a row. */
  function SendAll<M>(p: Port<M>, ms: seq<M>): (r: Sent<M>)
    ensures r.port.connected == p.connected
    decreases |ms|
  {
    if |ms| == 0 then Sent(p, [])
    else
      var first := Send(p, ms[0]);
      var rest := SendAll(first.port, ms[1..]);
      Sent(rest.port, first.out + rest.out)
  }

  /** Sends before the handshake only queue; they reach the wire with it. */
  lemma {:induction false} SendAllClosed<M>(p: Port<M>, ms: seq<M>)
    requires !p.connected
    ensures SendAll(p, ms) == Sent(p.(queue := p.queue + ms), [])
    decreases |ms|
  {
    if |ms| > 0 {
      SendAllClosed(p.(queue := p.queue + [ms[0]]), ms[1..]);
      assert p.queue + [ms[0]] + ms[1..] == p.queue + ms;
    }
  }

  /** Sends after the handshake go out directly and in order. */
  lemma {:induction false} SendAllOpen<M>(p: Port<M>, ms: seq<M>)
    requires p.connected
    ensures SendAll(p, ms) == Sent(p, ms)
    decreases |ms|
  {
    if |ms| > 0 {
      SendAllOpen(p, ms[1..]);
      assert [ms[0]] + ms[1..] == ms;
    }
  }

  /** Whatever is sent before and after the handshake reaches the wire once
      each, in the order it was sent. */
  lemma Fifo<M>(before: seq<M>, after: seq<M>)
    ensures
      var b := SendAll(Closed<M>(), before);
      var h := Handshake(b.port);
      var a := SendAll(h.port, after);
      b.out + h.out + a.out == before + after
  {
    var b := SendAll(Closed<M>(), before);
    SendAllClosed(Closed<M>(), before);
    assert b.port.queue == before;
    var h := Handshake(b.port);
    SendAllOpen(h.port, after);
  }
}

=== FILE: common.dfy ===
/** Shared vocabulary: optional values, JavaScript truthiness of optional
    strings, ASCII case mapping and the `split`/`join` pair on strings. */
module Common {

  /** An optional value; `None` stands for JavaScript `undefined`/`null`. */
  datatype Option<+T> = None | Some(value: T)

  /** JavaScript truthiness of a string that may be absent: `undefined`,
      `null` and `""` are falsy, every other string is truthy. */
  predicate Truthy(s: Option<string>)
  {
    s.Some? && s.value != ""
  }

  function UpperChar(c: char): char
  {
    if 'a' <= c <= 'z' then (c as int - 32) as char else c
  }

  function LowerChar(c: char): char
  {
    if 'A' <= c <= 'Z' then (c as int + 32) as char else c
  }

  /** `toUpperCase()` restricted to ASCII letters (length preserving). */
  function Upper(s: string): (r: string)
    ensures |r| == |s|
    ensures forall i :: 0 <= i < |s| ==> r[i] == UpperChar(s[i])
  {
    seq(|s|, i requires 0 <= i < |s| => UpperChar(s[i]))
  }

  /** `toLowerCase()` restricted to ASCII letters (length preserving). */
  function Lower(s: string): (r: string)
    ensures |r| == |s|
    ensures forall i :: 0 <= i < |s| ==> r[i] == LowerChar(s[i])
  {
    seq(|s|, i requires 0 <= i < |s| => LowerChar(s[i]))
  }

  /** The position of the first `c` in `s`. */
  function IndexOf(s: string, c: char): (k: nat)
    requires c in s
    ensures k < |s| && s[k] == c
    ensures c !in s[..k]
  {
    if s[0] == c then 0 else 1 + IndexOf(s[1..], c)
  }

  /** `s.split(sep)` for a one-character separator: the pieces between
      separators, from left to right. */
  function Split(s: string, sep: char): (parts: seq<string>)
    ensures |parts| >= 1
    ensures forall i :: 0 <= i < |parts| ==> sep !in parts[i]
    decreases |s|
  {
    if sep !in s then [s]
    else
      var k := IndexOf(s, sep);
      [s[..k]] + Split(s[k + 1..], sep)
  }

  /** `parts.join(sep)`. */
  function Join(parts: seq<string>, sep: char): string
  {
    if |parts| == 0 then ""
    else if |parts| == 1 then parts[0]
    else parts[0] + [sep] + Join(parts[1..], sep)
  }

  /** Joining the pieces of a split gives back the original string. */
  lemma {:induction false} JoinSplit(s: string, sep: char)
    ensures Join(Split(s, sep), sep) == s
    decreases |s|
  {
    if sep in s {
      var k := IndexOf(s, sep);
      var rest := Split(s[k + 1..], sep);
      JoinSplit(s[k + 1..], sep);
      var parts := Split(s, sep);
      assert parts == [s[..k]] + rest;
      assert |parts| >= 2 && parts[0] == s[..k] && parts[1..] == rest;
      assert Join(parts, sep) == s[..k] + [sep] + Join(rest, sep);
      assert s == s[..k] + [sep] + s[k + 1..];
    }
  }

  /** The first separator of `a + [sep] + b` is the one after `a` when `a`
      holds none. */
  lemma IndexOfAfterPrefix(a: string, sep: char, b: string)
    requires sep !in a
    ensures sep in a + [sep] + b
    ensures IndexOf(a + [sep] + b, sep) == |a|
    decreases |a|
  {
    var s := a + [sep] + b;
    assert s[|a|] == sep;
    if |a| > 0 {
      assert s[1..] == a[1..] + [sep] + b;
      IndexOfAfterPrefix(a[1..], sep, b);
    }
  }

  /** Splitting a join of separator-free pieces gives back the pieces. */
  lemma {:induction false} SplitJoin(parts: seq<string>, sep: char)
    requires |parts| >= 1
    requires forall i :: 0 <= i < |parts| ==> sep !in parts[i]
    ensures Split(Join(parts, sep), sep) == parts
  {
    if |parts| > 1 {
      var rest := parts[1..];
      assert forall i :: 0 <= i < |rest| ==> sep !in rest[i] by {
        forall i | 0 <= i < |rest| ensures sep !in rest[i] {
          assert rest[i] == parts[i + 1];
        }
      }
      var tail := Join(rest, sep);
      var s := parts[0] + [sep] + tail;
      assert Join(parts, sep) == s;
      IndexOfAfterPrefix(parts[0], sep, tail);
      SplitAt(s, sep, |parts[0]|);
      assert s[..|parts[0]|] == parts[0];
      assert s[|parts[0]| + 1..] == tail;
      SplitJoin(rest, sep);
      assert parts == [parts[0]] + rest;
    }
  }

  /** Unfolds `Split` once at its first separator. */
  lemma SplitAt(s: string, sep: char, k: nat)
    requires sep in s && IndexOf(s, sep) == k
    ensures Split(s, sep) == [s[..k]] + Split(s[k + 1..], sep)
  {
  }
}

=== FILE: glympse_adapter.dfy ===
/** The adapter object (GlympseAdapter.js): `run()` builds the API surface,
    queues the `Connected` manifest and starts either the cards or the
    viewer; `notify` turns component events into progress reports and
    host/controller messages; `infoUpdate` relays state; the host's
    handshake flushes the queue.

    Every step returns the new adapter and the effects it caused, in order:
    messages to the host and to the owning controller, and calls into the
    components (`ConnectHost`, `InitCards`, `LoadViewer`, the configured
    `initialize` callback). */
module GlympseAdapter {
  import opened Common
  import opened Invites
  import Api
  import Channel

  datatype MsgId =
    | Connected | Progress | AdapterInit | StateUpdate | DataUpdate
    | ViewerInit | ViewerReady | CardsInitStart | CardInit | CardReady | CardsInitEnd
    | OtherMsg(name: string)

  /** The component events that each advance the progress counter. */
  predicate IsProgressEvent(id: MsgId)
  {
    id.ViewerInit? || id.ViewerReady? || id.CardsInitStart? || id.CardInit? || id.CardReady? || id.CardsInitEnd?
  }

  datatype Payload =
    | Settings(manifest: Api.Manifest)
    | ProgressInfo(curr: int, total: int)
    | StartInfo(isCard: bool, t: seq<string>, pg: Multi, twt: Multi, g: Multi)
    | CardAdded
    | StateInfo(key: string, val: Api.Value)
    | EventArgs(ref: Option<string>, data: Api.Value)

  datatype Message = Message(id: MsgId, val: Payload)

  datatype Effect =
    | ToHost(msg: Message)
    | ToController(msg: Message)
    | ConnectHost
    | InitCards(invites: seq<string>)
    | LoadViewer(t: string, pg: Option<string>, twt: Option<string>, g: Option<string>)
    | ExternalInitialize(name: string)

  /** The adapter configuration (`cfg.adapter`), the viewer's invite list
      (`cfg.viewer.t`) and the namespaces' request lists. */
  datatype Config = Config(
    card: Option<string>,
    t: Option<string>,
    pg: Option<string>,
    twt: Option<string>,
    g: Option<string>,
    hideEvents: bool,
    hideUpdates: bool,
    hasInitialize: bool,
    interfaces: Option<seq<string>>,
    viewerT: Option<string>,
    defines: Api.Defines)

  datatype Adapter = Adapter(
    cfg: Config,
    initialized: bool,
    port: Channel.Port<Message>,
    invitesCard: seq<string>,
    invitesGlympse: seq<string>,
    progressCurrent: int,
    progressTotal: int,
    surface: Option<Api.Surface>)

  datatype Step = Step(adapter: Adapter, effects: seq<Effect>)

  /** Progress steps of a card start, of an invite start, and added by each
      card discovered later. */
  const CardTotal := 5 + 1 * 2
  const InviteTotal := 3
  const CardGrowth := CardTotal - 2

  function BaseTotal(cfg: Config): int
  {
    if Truthy(cfg.card) then CardTotal else InviteTotal
  }

  function StartCards(cfg: Config): nat
  {
    if Truthy(cfg.card) then 1 else 0
  }

  /** A progress message never reports more steps than the total. */
  predicate ProgressOk(m: Message)
  {
    m.id.Progress? ==> m.val.ProgressInfo? && 0 <= m.val.curr <= m.val.total
  }

  predicate EffectsOk(es: seq<Effect>)
  {
    forall i :: 0 <= i < |es| ==> (es[i].ToHost? || es[i].ToController?) ==> ProgressOk(es[i].msg)
  }

  predicate NoDuplicates(s: seq<string>)
  {
    forall i, j :: 0 <= i < j < |s| ==> s[i] != s[j]
  }

  /** What the channel side of every adapter satisfies, including one left
      behind by a `run()` that threw: before `run()` the host cannot have
      connected, and every queued progress report is well formed. */
  predicate Sound(a: Adapter)
  {
    && Channel.Valid(a.port)
    && (!a.initialized ==> !a.port.connected)
    && 0 <= a.progressCurrent && 0 <= a.progressTotal
    && (forall i :: 0 <= i < |a.port.queue| ==> ProgressOk(a.port.queue[i]))
  }

  /** What every adapter reachable through the corrected `run()` satisfies:
      once started, the progress total is the start's base plus a fixed
      growth for every card discovered since, and no card is counted twice. */
  predicate Valid(a: Adapter)
  {
    && Sound(a)
    && (a.initialized ==>
         && a.surface.Some?
         && |a.invitesCard| >= StartCards(a.cfg)
         && a.progressTotal == BaseTotal(a.cfg) + CardGrowth * (|a.invitesCard| - StartCards(a.cfg))
         && NoDuplicates(a.invitesCard))
  }

  /** The adapter as constructed. */
  function New(cfg: Config): (a: Adapter)
    ensures Valid(a) && !a.initialized && a.port.queue == []
  {
    Adapter(cfg, false, Channel.Closed(), [], [], 0, 0, None)
  }

  function ToHosts(ms: seq<Message>): (es: seq<Effect>)
    ensures |es| == |ms| && forall i :: 0 <= i < |ms| ==> es[i] == ToHost(ms[i])
  {
    if |ms| == 0 then [] else [ToHost(ms[0])] + ToHosts(ms[1..])
  }

  /** `notifyController`: an event message is held back by `hideEvents`,
      any other message by `hideUpdates`. */
  function ToCtl(cfg: Config, m: Message, event: bool): (es: seq<Effect>)
    ensures es == [] || es == [ToController(m)]
    ensures es == [] <==> (if event then cfg.hideEvents else cfg.hideUpdates)
  {
    if (!event && cfg.hideUpdates) || (event && cfg.hideEvents) then [] else [ToController(m)]
  }

  /** `sendOasisMessage`: straight out once connected, queued before. */
  function SendHost(a: Adapter, m: Message): (r: Step)
    ensures r.adapter == a.(port := r.adapter.port)
    ensures r.adapter.port.connected == a.port.connected
    ensures a.port.connected ==> r.effects == [ToHost(m)] && r.adapter.port == a.port
    ensures !a.port.connected ==> r.effects == [] && r.adapter.port.queue == a.port.queue + [m]
    ensures Valid(a) && ProgressOk(m) ==> Valid(r.adapter) && EffectsOk(r.effects)
  {
    var s := Channel.Send(a.port, m);
    Step(a.(port := s.port), ToHosts(s.out))
  }

  /** `sendEvent`: to the host, then to the controller unless events are
      hidden. */
  function SendEvent(a: Adapter, m: Message): (r: Step)
    ensures r.adapter == SendHost(a, m).adapter
    ensures r.effects == SendHost(a, m).effects + ToCtl(a.cfg, m, true)
    ensures Valid(a) && ProgressOk(m) ==> Valid(r.adapter) && EffectsOk(r.effects)
  {
    var s := SendHost(a, m);
    EffectsOkConcat(s.effects, ToCtl(a.cfg, m, true));
    assert ProgressOk(m) ==> EffectsOk(ToCtl(a.cfg, m, true));
    Step(s.adapter, s.effects + ToCtl(a.cfg, m, true))
  }

  lemma EffectsOkConcat(x: seq<Effect>, y: seq<Effect>)
    ensures EffectsOk(x + y) <==> EffectsOk(x) && EffectsOk(y)
  {
    assert forall i :: 0 <= i < |x| ==> (x + y)[i] == x[i];
    assert forall i :: 0 <= i < |y| ==> (x + y)[|x| + i] == y[i];
  }

  function Min(x: int, y: int): (z: int)
    ensures z <= x && z <= y && (z == x || z == y)
  {
    if x <= y then x else y
  }

  /** `updateProgress`: one more step, reported capped at the total. */
  function ProgressMessage(a: Adapter): (m: Message)
    requires 0 <= a.progressCurrent && 0 <= a.progressTotal
    ensures m.id == Progress && m.val.ProgressInfo? && ProgressOk(m)
    ensures m.val.curr == a.progressCurrent + 1 || (m.val.curr == a.progressTotal <= a.progressCurrent + 1)
    ensures m.val.total == a.progressTotal
  {
    Message(Progress, ProgressInfo(Min(a.progressCurrent + 1, a.progressTotal), a.progressTotal))
  }

  function UpdateProgress(a: Adapter): (r: Step)
    requires Valid(a)
    ensures Valid(r.adapter) && EffectsOk(r.effects)
    ensures r.adapter == SendEvent(a.(progressCurrent := a.progressCurrent + 1), ProgressMessage(a)).adapter
    ensures r.effects == SendEvent(a, ProgressMessage(a)).effects
  {
    SendEvent(a.(progressCurrent := a.progressCurrent + 1), ProgressMessage(a))
  }

  /** The cleaned Glympse invites of `run()`; a falsy `t` gives none. */
  function GlympseInvites(t: Option<string>): (r: seq<string>)
    ensures !Truthy(t) ==> r == []
    ensures Truthy(t) ==> |r| == |Split(t.value, ';')|
    ensures Truthy(t) ==> forall i :: 0 <= i < |r| ==> r[i] == CleanInvite(Split(t.value, ';')[i])
  {
    match SplitMulti(t)
    case Parts(ps) => CleanInvites(ps)
    case Unsplit(_) => []
  }

  /** `run()` up to reading the invite lists: the surface is built, the
      `Connected` manifest queued and the channel opened. */
  function Launch(a: Adapter): (l: Adapter)
    requires Sound(a) && !a.initialized
    ensures l.initialized && l.surface.Some? && !l.port.connected
    ensures l.surface.value == Api.Build(a.cfg.defines, a.cfg.viewerT, a.cfg.interfaces)
    ensures l.port.queue == a.port.queue + [Message(Connected, Settings(l.surface.value.manifest))]
    ensures l.cfg == a.cfg && l.progressCurrent == a.progressCurrent && l.progressTotal == a.progressTotal
    ensures Sound(l) && l.invitesCard == a.invitesCard && l.invitesGlympse == a.invitesGlympse
  {
    var surface := Api.Build(a.cfg.defines, a.cfg.viewerT, a.cfg.interfaces);
    var m := Message(Connected, Settings(surface.manifest));
    a.(initialized := true, surface := Some(surface), port := a.port.(queue := a.port.queue + [m]))
  }

  /** `run()` from the cleaned Glympse invites on: reset the progress,
      announce the start, report the first step, then start the cards, or
      the viewer when there is anything to show. */
  function Finish(l: Adapter, glympse: seq<string>): (r: Step)
    requires l.initialized && l.surface.Some? && !l.port.connected && 0 <= l.progressTotal
    requires forall i :: 0 <= i < |l.port.queue| ==> ProgressOk(l.port.queue[i])
    ensures Valid(r.adapter) && EffectsOk(r.effects)
    ensures r.adapter.progressCurrent == 1 && r.adapter.progressTotal == BaseTotal(l.cfg)
    ensures r.adapter.invitesGlympse == glympse
    ensures r.adapter.invitesCard == if Truthy(l.cfg.card) then CleanInvites([l.cfg.card.value]) else []
    ensures r.adapter.port.queue == l.port.queue + [Message(Progress, ProgressInfo(1, BaseTotal(l.cfg)))]
    ensures Truthy(l.cfg.card) ==> |r.effects| > 0 && r.effects[|r.effects| - 1] == InitCards(r.adapter.invitesCard)
    ensures r.adapter.cfg == l.cfg && r.adapter.surface == l.surface && r.adapter.initialized
  {
    var l1 := Reset(l, glympse);
    var p := UpdateProgress(l1);
    Step(p.adapter, ToCtl(l.cfg, StartMessage(l.cfg, glympse), true) + p.effects + Load(l.cfg, l1.invitesCard, glympse))
  }

  /** The card list of `run()`: the configured card, cleaned, if truthy. */
  function CardInvites(cfg: Config): seq<string>
  {
    if Truthy(cfg.card) then CleanInvites([cfg.card.value]) else []
  }

  /** The adapter once `run()` has read the invite lists and reset the
      progress to none of the base total. */
  function Reset(l: Adapter, glympse: seq<string>): (l1: Adapter)
    requires l.initialized && l.surface.Some? && !l.port.connected && 0 <= l.progressTotal
    requires forall i :: 0 <= i < |l.port.queue| ==> ProgressOk(l.port.queue[i])
    ensures Valid(l1) && l1.cfg == l.cfg && l1.port == l.port
    ensures ProgressMessage(l1) == Message(Progress, ProgressInfo(1, BaseTotal(l.cfg)))
  {
    l.(invitesCard := CardInvites(l.cfg), invitesGlympse := glympse,
       progressCurrent := 0, progressTotal := BaseTotal(l.cfg))
  }

  /** The `AdapterInit` announcement of `run()`. */
  function StartMessage(cfg: Config, glympse: seq<string>): Message
  {
    Message(AdapterInit, StartInfo(cfg.card.Some?, glympse, SplitMulti(cfg.pg), SplitMulti(cfg.twt), SplitMulti(cfg.g)))
  }

  /** The component `run()` starts last: the cards when there is a card,
      else the viewer when there is anything to show, else none. */
  function Load(cfg: Config, invitesCard: seq<string>, glympse: seq<string>): (es: seq<Effect>)
    ensures |es| <= 1 && forall i :: 0 <= i < |es| ==> !es[i].ToController? && !es[i].ToHost?
  {
    var t := Join(glympse, ';');
    if Truthy(cfg.card) then [InitCards(invitesCard)]
    else if t != "" || Truthy(cfg.pg) || Truthy(cfg.g) || Truthy(cfg.twt) then [LoadViewer(t, cfg.pg, cfg.twt, cfg.g)]
    else []
  }

  /** `run()`, with a falsy Glympse invite list read as an empty one; a
      second call does nothing. */
  function Run(a: Adapter): (r: Step)
    requires Valid(a)
    ensures Valid(r.adapter) && EffectsOk(r.effects)
    ensures a.initialized ==> r == Step(a, [])
    ensures !a.initialized ==> r.adapter.initialized && |r.effects| > 0 && r.effects[0] == ConnectHost
  {
    if a.initialized then Step(a, [])
    else
      var l := Launch(a);
      var f := Finish(l, GlympseInvites(a.cfg.t));
      EffectsOkCons(ConnectHost, f.effects);
      Step(f.adapter, [ConnectHost] + f.effects)
  }

  /** The first `run()` reports one step of the base total, keeps the
      cleaned Glympse invites and installs the surface built from the
      configuration. */
  lemma RunStarts(a: Adapter)
    requires Valid(a) && !a.initialized
    ensures var r := Run(a);
      && r.adapter.progressCurrent == 1 && r.adapter.progressTotal == BaseTotal(a.cfg)
      && r.adapter.invitesGlympse == GlympseInvites(a.cfg.t)
      && r.adapter.surface == Some(Api.Build(a.cfg.defines, a.cfg.viewerT, a.cfg.interfaces))
  {
    RunFinishes(a);
  }

  /** The first `run()` queues the `Connected` manifest and then the first
      progress report for the host. */
  lemma RunQueuesManifest(a: Adapter)
    requires Valid(a) && !a.initialized
    ensures var r := Run(a);
      && r.adapter.surface.Some?
      && r.adapter.port.queue ==
           a.port.queue + [Message(Connected, Settings(r.adapter.surface.value.manifest)),
                           Message(Progress, ProgressInfo(1, BaseTotal(a.cfg)))]
  {
    var l := Launch(a);
    var f := Finish(l, GlympseInvites(a.cfg.t));
    var c := Message(Connected, Settings(l.surface.value.manifest));
    var pm := Message(Progress, ProgressInfo(1, BaseTotal(a.cfg)));
    RunFinishes(a);
    assert f.adapter.port.queue == a.port.queue + [c] + [pm];
    assert a.port.queue + [c] + [pm] == a.port.queue + [c, pm];
  }

  /** The first `run()` with a card configured ends by starting the cards
      with the cleaned card. */
  lemma RunStartsCardLast(a: Adapter)
    requires Valid(a) && !a.initialized && Truthy(a.cfg.card)
    ensures var r := Run(a);
      |r.effects| > 0 && r.effects[|r.effects| - 1] == InitCards(CleanInvites([a.cfg.card.value]))
  {
    RunFinishes(a);
    ConnectFirst(Finish(Launch(a), GlympseInvites(a.cfg.t)).effects);
  }

  /** The end of `run()` tells the controller of the start and then of the
      first step, both as events. */
  lemma FinishCtl(l: Adapter, glympse: seq<string>)
    requires l.initialized && l.surface.Some? && !l.port.connected && 0 <= l.progressTotal
    requires forall i :: 0 <= i < |l.port.queue| ==> ProgressOk(l.port.queue[i])
    ensures var cfg := l.cfg;
      ControllerSide(Finish(l, glympse).effects) ==
        ToCtl(cfg, Message(AdapterInit, StartInfo(cfg.card.Some?, glympse, SplitMulti(cfg.pg), SplitMulti(cfg.twt), SplitMulti(cfg.g))), true)
        + ToCtl(cfg, Message(Progress, ProgressInfo(1, BaseTotal(cfg))), true)
  {
    var l1 := Reset(l, glympse);
    var announce, p, load := ToCtl(l.cfg, StartMessage(l.cfg, glympse), true), UpdateProgress(l1), Load(l.cfg, l1.invitesCard, glympse);
    SendEventCtl(l1, ProgressMessage(l1));
    ControllerSideOfCtl(l.cfg, StartMessage(l.cfg, glympse), true);
    ControllerSideOfOthers(load);
    ControllerSideConcat(announce, p.effects);
    ControllerSideConcat(announce + p.effects, load);
  }

  /** Without a card, the end of `run()` starts the viewer with the joined
      invites and the other lists exactly when there is anything to show,
      and otherwise starts no component. */
  lemma FinishLoad(l: Adapter, glympse: seq<string>)
    requires l.initialized && l.surface.Some? && !l.port.connected && 0 <= l.progressTotal
    requires forall i :: 0 <= i < |l.port.queue| ==> ProgressOk(l.port.queue[i])
    requires !Truthy(l.cfg.card)
    ensures var cfg, es, t := l.cfg, Finish(l, glympse).effects, Join(glympse, ';');
      && ((t != "" || Truthy(cfg.pg) || Truthy(cfg.g) || Truthy(cfg.twt)) ==>
            |es| > 0 && es[|es| - 1] == LoadViewer(t, cfg.pg, cfg.twt, cfg.g))
      && (!(t != "" || Truthy(cfg.pg) || Truthy(cfg.g) || Truthy(cfg.twt)) ==>
            forall i :: 0 <= i < |es| ==> !es[i].LoadViewer? && !es[i].InitCards?)
  {
  }

  /** The first `run()` tells the controller of the start, with the card
      flag, the cleaned Glympse invites and the split lists, and then of
      the first step; each is held back when events are hidden. */
  lemma RunTellsController(a: Adapter)
    requires Valid(a) && !a.initialized
    ensures var cfg := a.cfg;
      ControllerSide(Run(a).effects) ==
        ToCtl(cfg, Message(AdapterInit, StartInfo(cfg.card.Some?, GlympseInvites(cfg.t), SplitMulti(cfg.pg), SplitMulti(cfg.twt), SplitMulti(cfg.g))), true)
        + ToCtl(cfg, Message(Progress, ProgressInfo(1, BaseTotal(cfg))), true)
  {
    var f := Finish(Launch(a), GlympseInvites(a.cfg.t));
    FinishCtl(Launch(a), GlympseInvites(a.cfg.t));
    RunFinishes(a);
    ControllerSideConcat([ConnectHost], f.effects);
    ControllerSideOfOthers([ConnectHost]);
  }

  /** Without a card, the first `run()` ends by starting the viewer with
      the joined Glympse invites and the configured lists exactly when
      there is anything to show; otherwise no component is started. */
  lemma RunLoadsViewer(a: Adapter)
    requires Valid(a) && !a.initialized && !Truthy(a.cfg.card)
    ensures var cfg, es, t := a.cfg, Run(a).effects, Join(GlympseInvites(a.cfg.t), ';');
      && ((t != "" || Truthy(cfg.pg) || Truthy(cfg.g) || Truthy(cfg.twt)) ==>
            |es| > 0 && es[|es| - 1] == LoadViewer(t, cfg.pg, cfg.twt, cfg.g))
      && (!(t != "" || Truthy(cfg.pg) || Truthy(cfg.g) || Truthy(cfg.twt)) ==>
            forall i :: 0 <= i < |es| ==> !es[i].LoadViewer? && !es[i].InitCards?)
  {
    var l, g := Launch(a), GlympseInvites(a.cfg.t);
    FinishLoad(l, g);
    RunFinishes(a);
    ConnectFirst(Finish(l, g).effects);
  }

  /** The first `run()` connects the host and then does what `Finish` does. */
  lemma RunFinishes(a: Adapter)
    requires Valid(a) && !a.initialized
    ensures var f := Finish(Launch(a), GlympseInvites(a.cfg.t));
      Run(a) == Step(f.adapter, [ConnectHost] + f.effects)
  {
  }

  /** Connecting first changes neither the last effect nor which components
      are started. */
  lemma ConnectFirst(es: seq<Effect>)
    ensures |es| > 0 ==> ([ConnectHost] + es)[|es|] == es[|es| - 1]
    ensures (forall i :: 0 <= i < |es| ==> !es[i].LoadViewer? && !es[i].InitCards?) ==>
      forall i :: 0 <= i < |[ConnectHost] + es| ==> !([ConnectHost] + es)[i].LoadViewer? && !([ConnectHost] + es)[i].InitCards?
  {
    assert forall i :: 1 <= i < |[ConnectHost] + es| ==> ([ConnectHost] + es)[i] == es[i - 1];
  }


  /** An effect that carries no message can go in front of any effects. */
  lemma EffectsOkCons(e: Effect, es: seq<Effect>)
    requires !e.ToHost? && !e.ToController? && EffectsOk(es)
    ensures EffectsOk([e] + es)
    ensures |[e] + es| > 0 && ([e] + es)[0] == e
    ensures |es| > 0 ==> ([e] + es)[|es|] == es[|es| - 1]
  {
    assert forall i :: 1 <= i < |[e] + es| ==> ([e] + es)[i] == es[i - 1];
  }

  /** How `run()` as written ends: normally, or by throwing part-way. */
  datatype Outcome = Returned(step: Step) | Threw(adapter: Adapter, effects: seq<Effect>)

  /** `run()` as written: `cleanInvites(splitMulti(t))` throws a TypeError
      when `t` is falsy. By then the adapter is marked initialized, the
      channel is open and the card list is set; the progress counters are
      not yet reset. */
  function RunAsWritten(a: Adapter): (o: Outcome)
    requires Sound(a)
  {
    if a.initialized then Returned(Step(a, []))
    else
      var l := Launch(a);
      match SplitMulti(a.cfg.t)
      case Unsplit(_) =>
        var invitesCard := if Truthy(a.cfg.card) then CleanInvites([a.cfg.card.value]) else [];
        Threw(l.(invitesCard := invitesCard), [ConnectHost])
      case Parts(ps) =>
        var f := Finish(l, CleanInvites(ps));
        Returned(Step(f.adapter, [ConnectHost] + f.effects))
  }

  /** With a Glympse invite list the two agree. */
  lemma RunAsWrittenAgrees(a: Adapter)
    requires Valid(a) && Truthy(a.cfg.t)
    ensures RunAsWritten(a) == Returned(Run(a))
  {
  }

  /** Without one, `run()` as written throws before it announces the start
      or reports progress: the adapter keeps its old progress counters and
      Glympse invites, holds only the `Connected` manifest in its queue, and
      a later `run()` does nothing, so it stays that way. */
  lemma RunAsWrittenThrows(a: Adapter)
    requires Sound(a) && !a.initialized && !Truthy(a.cfg.t)
    ensures RunAsWritten(a).Threw? && RunAsWritten(a).effects == [ConnectHost]
    ensures var b := RunAsWritten(a).adapter;
      && Sound(b) && b.initialized && b.surface.Some?
      && b.invitesCard == (if Truthy(a.cfg.card) then CleanInvites([a.cfg.card.value]) else [])
      && b.invitesGlympse == a.invitesGlympse
      && b.progressCurrent == a.progressCurrent && b.progressTotal == a.progressTotal
      && b.port.queue == a.port.queue + [Message(Connected, Settings(b.surface.value.manifest))]
      && RunAsWritten(b) == Returned(Step(b, []))
  {
    var l := Launch(a);
    assert SplitMulti(a.cfg.t).Unsplit?;
  }

  /** The host can still connect to an adapter whose `run()` threw: the
      handshake delivers the queued messages, ending with the manifest, and
      nothing announces the start. */
  lemma ThrownStillConnects(a: Adapter, name: string)
    requires Sound(a) && !a.initialized && !Truthy(a.cfg.t) && a.port.queue == []
    ensures var b := RunAsWritten(a).adapter;
      && b.surface.Some?
      && var h := Handshake(b, name);
      && h.effects[0] == ToHost(Message(Connected, Settings(b.surface.value.manifest)))
      && h.effects[1..] == if a.cfg.hasInitialize then [ExternalInitialize(name)] else []
  {
    RunAsWrittenThrows(a);
    var b := RunAsWritten(a).adapter;
    assert b.port.queue == [Message(Connected, Settings(b.surface.value.manifest))];
    assert ToHosts(b.port.queue) == [ToHost(b.port.queue[0])];
  }

  /** A configuration with a card and nothing else. */
  function CardOnly(defines: Api.Defines): (cfg: Config)
    ensures Truthy(cfg.card) && !Truthy(cfg.t)
  {
    Config(Some("abc123"), None, None, None, None, false, false, false, None, None, defines)
  }

  /** A card-only configuration shows the difference: as written, the start
      throws before the card is started, and the adapter it leaves records
      the card without the progress total that goes with it. */
  lemma CardOnlyStartThrows(defines: Api.Defines)
    ensures RunAsWritten(New(CardOnly(defines))).Threw?
    ensures InitCards(["ABC-123"]) !in RunAsWritten(New(CardOnly(defines))).effects
    ensures RunAsWritten(New(CardOnly(defines))).adapter.invitesCard == ["ABC-123"]
    ensures !Valid(RunAsWritten(New(CardOnly(defines))).adapter)
  {
    assert Upper("abc123") == "ABC123";
    assert CleanInvite("abc123") == "ABC-123";
    assert CleanInvites(["abc123"]) == ["ABC-123"];
    RunAsWrittenThrows(New(CardOnly(defines)));
  }

  /** The corrected `run()` starts the card, cleaned, as its last effect. */
  lemma CardOnlyStart(defines: Api.Defines)
    ensures var r := Run(New(CardOnly(defines)));
      |r.effects| > 0 && r.effects[|r.effects| - 1] == InitCards(["ABC-123"])
  {
    assert Upper("abc123") == "ABC123";
    assert CleanInvite("abc123") == "ABC-123";
    assert CleanInvites(["abc123"]) == ["ABC-123"];
    RunStartsCardLast(New(CardOnly(defines)));
  }

  /** A `DataUpdate` whose `ref` names a card not seen before. */
  predicate NewCard(a: Adapter, args: Payload)
  {
    args.EventArgs? && Truthy(args.ref) && args.ref.value !in a.invitesCard
  }

  /** The adapter with one more card and the larger total. */
  function Grown(a: Adapter, card: string): (g: Adapter)
    requires Valid(a) && card !in a.invitesCard
    ensures Valid(g)
  {
    a.(progressTotal := a.progressTotal + CardGrowth, invitesCard := a.invitesCard + [card])
  }

  /** The `DataUpdate` branch of `notify` for a new card: the total grows,
      the card is recorded once, the controller hears of it (as an update),
      a step is reported and the cards are restarted with the longer list. */
  function AddCard(a: Adapter, args: Payload): (r: Step)
    requires Valid(a) && NewCard(a, args)
    ensures Valid(r.adapter) && EffectsOk(r.effects)
    ensures r.adapter.progressTotal == a.progressTotal + CardGrowth
    ensures r.adapter.progressCurrent == a.progressCurrent + 1
    ensures r.adapter.invitesCard == a.invitesCard + [args.ref.value]
    ensures InitCards(r.adapter.invitesCard) in r.effects
    ensures (ToController(Message(AdapterInit, CardAdded)) in r.effects) <==> !a.cfg.hideUpdates
    ensures r.adapter.cfg == a.cfg && r.adapter.initialized == a.initialized && r.adapter.surface == a.surface
    ensures forall i :: 0 <= i < |r.effects| && r.effects[i].ToController? ==> !r.effects[i].msg.id.DataUpdate?
  {
    var a1 := Grown(a, args.ref.value);
    var told := ToCtl(a.cfg, Message(AdapterInit, CardAdded), false);
    var p := UpdateProgress(a1);
    assert ToController(Message(AdapterInit, CardAdded)) !in p.effects by {
      assert p.effects == SendHost(a1, ProgressMessage(a1)).effects + ToCtl(a.cfg, ProgressMessage(a1), true);
    }
    Step(p.adapter, told + p.effects + [InitCards(a1.invitesCard)])
  }

  /** A new card reaches the host as its progress report sent through the
      channel, and then the cards restart with the longer list. */
  lemma AddCardHost(a: Adapter, args: Payload)
    requires Valid(a) && NewCard(a, args)
    ensures var r, sent := AddCard(a, args), Channel.SendAll(a.port, [ProgressMessage(Grown(a, args.ref.value))]);
      && r.adapter.port == sent.port
      && HostSide(r.effects) == ToHosts(sent.out) + [InitCards(r.adapter.invitesCard)]
  {
    var a1 := Grown(a, args.ref.value);
    CardHost(a1, ToCtl(a.cfg, Message(AdapterInit, CardAdded), false), UpdateProgress(a1));
  }

  /** A new card is announced to the controller as an update, then its
      progress report follows as an event; the cards restart is not a
      controller message. */
  lemma AddCardCtl(a: Adapter, args: Payload)
    requires Valid(a) && NewCard(a, args)
    ensures ControllerSide(AddCard(a, args).effects) ==
      ToCtl(a.cfg, Message(AdapterInit, CardAdded), false) + ToCtl(a.cfg, ProgressMessage(Grown(a, args.ref.value)), true)
  {
    var a1 := Grown(a, args.ref.value);
    var told := ToCtl(a.cfg, Message(AdapterInit, CardAdded), false);
    var p := UpdateProgress(a1);
    SendEventCtl(a1, ProgressMessage(a1));
    ControllerSideOfCtl(a.cfg, Message(AdapterInit, CardAdded), false);
    ControllerSideConcat(told, p.effects);
    ControllerSideConcat(told + p.effects, [InitCards(a1.invitesCard)]);
    ControllerSideOfOthers([InitCards(a1.invitesCard)]);
  }

  /** The card's progress report reaches the host as a send through the
      channel; the controller notice before it and the cards restart after
      it are not sent to the host. */
  lemma CardHost(a1: Adapter, told: seq<Effect>, p: Step)
    requires Valid(a1) && p == UpdateProgress(a1)
    requires forall i :: 0 <= i < |told| ==> told[i].ToController?
    ensures var sent := Channel.SendAll(a1.port, [ProgressMessage(a1)]);
      && p.adapter.port == sent.port
      && HostSide(told + p.effects + [InitCards(a1.invitesCard)]) == ToHosts(sent.out) + [InitCards(a1.invitesCard)]
  {
    var pm := ProgressMessage(a1);
    SendEventHost(a1.(progressCurrent := a1.progressCurrent + 1), pm);
    SendEventHost(a1, pm);
    HostSideBetween(told, p.effects, InitCards(a1.invitesCard));
  }

  /** Controller messages before and a non-message effect after leave the
      host side of the middle part. */
  lemma HostSideBetween(told: seq<Effect>, mid: seq<Effect>, last: Effect)
    requires forall i :: 0 <= i < |told| ==> told[i].ToController?
    requires !last.ToController?
    ensures HostSide(told + mid + [last]) == HostSide(mid) + [last]
  {
    HostSideOfCtls(told);
    HostSideConcat(told, mid);
    HostSideConcat(told + mid, [last]);
    assert HostSide([last]) == [last] + HostSide([last][1..]);
  }

  /** Messages to the controller are never host side. */
  lemma {:induction false} HostSideOfCtls(es: seq<Effect>)
    requires forall i :: 0 <= i < |es| ==> es[i].ToController?
    ensures HostSide(es) == []
  {
    if |es| > 0 {
      HostSideOfCtls(es[1..]);
    }
  }

  /** One of the six component events: a step is reported, then the event
      is passed on. */
  function ComponentEvent(a: Adapter, id: MsgId, args: Payload): (r: Step)
    requires Valid(a) && IsProgressEvent(id)
    ensures Valid(r.adapter) && EffectsOk(r.effects)
    ensures r.adapter.cfg == a.cfg && r.adapter.initialized == a.initialized && r.adapter.surface == a.surface
    ensures r.adapter.progressCurrent == a.progressCurrent + 1
    ensures r.adapter.progressTotal == a.progressTotal && r.adapter.invitesCard == a.invitesCard
    ensures (ToController(Message(id, args)) in r.effects) <==> !a.cfg.hideEvents
    ensures var sent := Channel.SendAll(a.port, [ProgressMessage(a), Message(id, args)]);
      r.adapter.port == sent.port && HostSide(r.effects) == ToHosts(sent.out)
    ensures ControllerSide(r.effects) == ToCtl(a.cfg, ProgressMessage(a), true) + ToCtl(a.cfg, Message(id, args), true)
  {
    var m := Message(id, args);
    var p := UpdateProgress(a);
    var e := SendEvent(p.adapter, m);
    assert ToController(m) !in p.effects by {
      assert p.effects == SendHost(a, ProgressMessage(a)).effects + ToCtl(a.cfg, ProgressMessage(a), true);
    }
    HostTwo(a, p, e, m);
    CtlTwo(a, p, e, m);
    Step(e.adapter, p.effects + e.effects)
  }

  /** A progress report followed by an event reach the host as the two
      messages sent through the channel in that order. */
  lemma HostTwo(a: Adapter, p: Step, e: Step, m: Message)
    requires Valid(a) && p == UpdateProgress(a) && e == SendEvent(p.adapter, m)
    ensures var sent := Channel.SendAll(a.port, [ProgressMessage(a), m]);
      e.adapter.port == sent.port && HostSide(p.effects + e.effects) == ToHosts(sent.out)
  {
    var pm := ProgressMessage(a);
    SendEventHost(a.(progressCurrent := a.progressCurrent + 1), pm);
    SendEventHost(a, pm);
    SendEventHost(p.adapter, m);
    HostSideConcat(p.effects, e.effects);
    if a.port.connected {
      Channel.SendAllOpen(a.port, [pm, m]);
      Channel.SendAllOpen(a.port, [pm]);
      Channel.SendAllOpen(a.port, [m]);
    } else {
      Channel.SendAllClosed(a.port, [pm, m]);
      Channel.SendAllClosed(a.port, [pm]);
      Channel.SendAllClosed(p.adapter.port, [m]);
      assert a.port.queue + [pm] + [m] == a.port.queue + [pm, m];
    }
  }

  /** A progress report followed by an event reach the controller as those
      two messages, each held back when events are hidden. */
  lemma CtlTwo(a: Adapter, p: Step, e: Step, m: Message)
    requires Valid(a) && p == UpdateProgress(a) && e == SendEvent(p.adapter, m)
    ensures ControllerSide(p.effects + e.effects) == ToCtl(a.cfg, ProgressMessage(a), true) + ToCtl(a.cfg, m, true)
  {
    SendEventCtl(a, ProgressMessage(a));
    SendEventCtl(p.adapter, m);
    ControllerSideConcat(p.effects, e.effects);
  }

  /** `sendEvent` reaches the host exactly as a send through the channel:
      straight out when connected, queued otherwise. */
  lemma SendEventHost(a: Adapter, m: Message)
    ensures var sent := Channel.SendAll(a.port, [m]);
      SendEvent(a, m).adapter.port == sent.port && HostSide(SendEvent(a, m).effects) == ToHosts(sent.out)
  {
    var s := SendHost(a, m);
    HostSideConcat(s.effects, ToCtl(a.cfg, m, true));
    HostSideOfCtl(a.cfg, m, true);
    HostSideOfHosts(s.effects);
    if a.port.connected {
      Channel.SendAllOpen(a.port, [m]);
      assert s.effects == [ToHost(m)];
    } else {
      Channel.SendAllClosed(a.port, [m]);
    }
  }

  /** Messages to the host are all host side. */
  lemma {:induction false} HostSideOfHosts(es: seq<Effect>)
    requires forall i :: 0 <= i < |es| ==> es[i].ToHost?
    ensures HostSide(es) == es
  {
    if |es| > 0 {
      HostSideOfHosts(es[1..]);
    }
  }

  /** A `DataUpdate`: a new card is added first; the update is passed on. */
  function DataEvent(a: Adapter, args: Payload): (r: Step)
    requires Valid(a)
    ensures Valid(r.adapter) && EffectsOk(r.effects)
    ensures r.adapter.cfg == a.cfg && r.adapter.initialized == a.initialized && r.adapter.surface == a.surface
    ensures r.adapter.progressTotal >= a.progressTotal
    ensures NewCard(a, args) ==>
      && r.adapter.progressTotal == a.progressTotal + CardGrowth
      && r.adapter.invitesCard == a.invitesCard + [args.ref.value]
      && InitCards(r.adapter.invitesCard) in r.effects
    ensures !NewCard(a, args) ==>
      r.adapter == SendHost(a, Message(DataUpdate, args)).adapter && r.effects == SendEvent(a, Message(DataUpdate, args)).effects
    ensures (ToController(Message(DataUpdate, args)) in r.effects) <==> !a.cfg.hideEvents
    ensures NewCard(a, args) ==>
      var sent := Channel.SendAll(a.port, [ProgressMessage(Grown(a, args.ref.value)), Message(DataUpdate, args)]);
      && r.adapter.port == sent.port
      && HostSide(r.effects) ==
           ToHosts(Channel.SendAll(a.port, [ProgressMessage(Grown(a, args.ref.value))]).out)
           + [InitCards(r.adapter.invitesCard)]
           + ToHosts(Channel.SendAll(a.port, [Message(DataUpdate, args)]).out)
    ensures !NewCard(a, args) ==>
      var sent := Channel.SendAll(a.port, [Message(DataUpdate, args)]);
      r.adapter.port == sent.port && HostSide(r.effects) == ToHosts(sent.out)
    ensures NewCard(a, args) ==>
      ControllerSide(r.effects) ==
        ToCtl(a.cfg, Message(AdapterInit, CardAdded), false)
        + ToCtl(a.cfg, ProgressMessage(Grown(a, args.ref.value)), true)
        + ToCtl(a.cfg, Message(DataUpdate, args), true)
    ensures !NewCard(a, args) ==> ControllerSide(r.effects) == ToCtl(a.cfg, Message(DataUpdate, args), true)
  {
    var m := Message(DataUpdate, args);
    if NewCard(a, args) then
      var c := AddCard(a, args);
      var e := SendEvent(c.adapter, m);
      EffectsOkConcat(c.effects, e.effects);
      assert ToController(m) !in c.effects;
      NewCardHost(a, args, c, e);
      NewCardCtl(a, args, c, e);
      Step(e.adapter, c.effects + e.effects)
    else
      SendEventHost(a, m);
      SendEventCtl(a, m);
      SendEvent(a, m)
  }

  /** For a new card the host gets the progress report, the cards restart,
      then the host gets the update itself. */
  lemma NewCardHost(a: Adapter, args: Payload, c: Step, e: Step)
    requires Valid(a) && NewCard(a, args) && c == AddCard(a, args)
    requires e == SendEvent(c.adapter, Message(DataUpdate, args))
    ensures var pm, m := ProgressMessage(Grown(a, args.ref.value)), Message(DataUpdate, args);
      && e.adapter.port == Channel.SendAll(a.port, [pm, m]).port
      && HostSide(c.effects + e.effects) ==
           ToHosts(Channel.SendAll(a.port, [pm]).out) + [InitCards(c.adapter.invitesCard)]
           + ToHosts(Channel.SendAll(a.port, [m]).out)
  {
    var pm, m := ProgressMessage(Grown(a, args.ref.value)), Message(DataUpdate, args);
    AddCardHost(a, args);
    SendEventHost(c.adapter, m);
    HostSideConcat(c.effects, e.effects);
    if a.port.connected {
      Channel.SendAllOpen(a.port, [pm, m]);
      Channel.SendAllOpen(a.port, [m]);
      Channel.SendAllOpen(c.adapter.port, [m]);
    } else {
      Channel.SendAllClosed(a.port, [pm, m]);
      Channel.SendAllClosed(a.port, [pm]);
      Channel.SendAllClosed(a.port, [m]);
      Channel.SendAllClosed(c.adapter.port, [m]);
      assert a.port.queue + [pm] + [m] == a.port.queue + [pm, m];
    }
  }

  /** For a new card the controller hears the card notice, the progress
      report and then the update itself. */
  lemma NewCardCtl(a: Adapter, args: Payload, c: Step, e: Step)
    requires Valid(a) && NewCard(a, args) && c == AddCard(a, args)
    requires e == SendEvent(c.adapter, Message(DataUpdate, args))
    ensures ControllerSide(c.effects + e.effects) ==
      ToCtl(a.cfg, Message(AdapterInit, CardAdded), false)
      + ToCtl(a.cfg, ProgressMessage(Grown(a, args.ref.value)), true)
      + ToCtl(a.cfg, Message(DataUpdate, args), true)
  {
    AddCardCtl(a, args);
    SendEventCtl(c.adapter, Message(DataUpdate, args));
    ControllerSideConcat(c.effects, e.effects);
  }

  /** `notify`: the six component events each report a step and are passed
      on; a `DataUpdate` may first add a card, and is passed on; anything
      else is ignored. */
  function Notify(a: Adapter, id: MsgId, args: Payload): (r: Step)
    requires Valid(a)
    ensures Valid(r.adapter) && EffectsOk(r.effects)
    ensures r.adapter.cfg == a.cfg && r.adapter.initialized == a.initialized && r.adapter.surface == a.surface
    ensures r.adapter.progressTotal >= a.progressTotal
    ensures IsProgressEvent(id) ==> r == ComponentEvent(a, id, args)
    ensures id.DataUpdate? ==> r == DataEvent(a, args)
    ensures !IsProgressEvent(id) && !id.DataUpdate? ==> r == Step(a, [])
  {
    if IsProgressEvent(id) then ComponentEvent(a, id, args)
    else if id.DataUpdate? then DataEvent(a, args)
    else Step(a, [])
  }

  /** `infoUpdate`: a `StateUpdate` to the controller (an update, held back
      by `hideUpdates`) and to the host. */
  function InfoUpdate(a: Adapter, key: string, val: Api.Value): (r: Step)
    requires Valid(a)
    ensures Valid(r.adapter) && EffectsOk(r.effects)
    ensures r.adapter == SendHost(a, Message(StateUpdate, StateInfo(key, val))).adapter
    ensures (ToController(Message(StateUpdate, StateInfo(key, val))) in r.effects) <==> !a.cfg.hideUpdates
    ensures (ToHost(Message(StateUpdate, StateInfo(key, val))) in r.effects) <==> a.port.connected
  {
    var m := Message(StateUpdate, StateInfo(key, val));
    var s := SendHost(a, m);
    Step(s.adapter, ToCtl(a.cfg, m, false) + s.effects)
  }

  /** The host's handshake (`oasisInitialize`), which exists once `run()`
      has registered it: the queue goes out in order, then the configured
      `initialize` callback is called with the port name. */
  function Handshake(a: Adapter, name: string): (r: Step)
    requires Sound(a) && a.initialized
    ensures Sound(r.adapter) && EffectsOk(r.effects)
    ensures Valid(a) ==> Valid(r.adapter)
    ensures r.adapter == a.(port := Channel.Port(true, []))
    ensures |r.effects| >= |a.port.queue| && r.effects[..|a.port.queue|] == ToHosts(a.port.queue)
    ensures r.effects[|a.port.queue|..] == if a.cfg.hasInitialize then [ExternalInitialize(name)] else []
  {
    var h := Channel.Handshake(a.port);
    var es := ToHosts(h.out) + if a.cfg.hasInitialize then [ExternalInitialize(name)] else [];
    assert es[..|a.port.queue|] == ToHosts(h.out);
    Step(a.(port := h.port), es)
  }

  /** The `getValue` entry of the `map` namespace: the viewer's current
      value once `run()` has created the viewer monitor. */
  function GetValue(a: Adapter, key: string, current: string -> Api.Value): (v: Api.Value)
    ensures !a.initialized && a.surface.None? ==> v == Api.Text("NOT_INITIALIZED")
    ensures a.surface.Some? ==> v == current(key)
  {
    if a.surface.None? then Api.Text("NOT_INITIALIZED") else current(key)
  }

  /** The same adapter with other hide flags. */
  function WithFlags(a: Adapter, hideEvents: bool, hideUpdates: bool): Adapter
  {
    a.(cfg := a.cfg.(hideEvents := hideEvents, hideUpdates := hideUpdates))
  }

  /** The effects other than messages to the controller. */
  function HostSide(es: seq<Effect>): seq<Effect>
  {
    if |es| == 0 then []
    else (if es[0].ToController? then [] else [es[0]]) + HostSide(es[1..])
  }

  lemma {:induction false} HostSideConcat(x: seq<Effect>, y: seq<Effect>)
    ensures HostSide(x + y) == HostSide(x) + HostSide(y)
  {
    if |x| > 0 {
      assert (x + y)[0] == x[0];
      assert (x + y)[1..] == x[1..] + y;
      HostSideConcat(x[1..], y);
    } else {
      assert x + y == y;
    }
  }

  lemma HostSideOfCtl(cfg: Config, m: Message, event: bool)
    ensures HostSide(ToCtl(cfg, m, event)) == []
  {
    if ToCtl(cfg, m, event) != [] {
      assert ToCtl(cfg, m, event)[1..] == [];
    }
  }

  /** The controller's side of some effects: its messages, in order. */
  function ControllerSide(es: seq<Effect>): seq<Effect>
  {
    if |es| == 0 then []
    else (if es[0].ToController? then [es[0]] else []) + ControllerSide(es[1..])
  }

  lemma {:induction false} ControllerSideConcat(x: seq<Effect>, y: seq<Effect>)
    ensures ControllerSide(x + y) == ControllerSide(x) + ControllerSide(y)
  {
    if |x| > 0 {
      assert (x + y)[0] == x[0];
      assert (x + y)[1..] == x[1..] + y;
      ControllerSideConcat(x[1..], y);
    } else {
      assert x + y == y;
    }
  }

  lemma ControllerSideOfCtl(cfg: Config, m: Message, event: bool)
    ensures ControllerSide(ToCtl(cfg, m, event)) == ToCtl(cfg, m, event)
  {
    if ToCtl(cfg, m, event) != [] {
      assert ToCtl(cfg, m, event)[1..] == [];
    }
  }

  /** Effects that are not controller messages are not controller side. */
  lemma {:induction false} ControllerSideOfOthers(es: seq<Effect>)
    requires forall i :: 0 <= i < |es| ==> !es[i].ToController?
    ensures ControllerSide(es) == []
  {
    if |es| > 0 {
      ControllerSideOfOthers(es[1..]);
    }
  }

  /** `sendEvent` tells the controller the message exactly when events are
      not hidden. */
  lemma SendEventCtl(a: Adapter, m: Message)
    ensures ControllerSide(SendEvent(a, m).effects) == ToCtl(a.cfg, m, true)
  {
    var s := SendHost(a, m);
    ControllerSideConcat(s.effects, ToCtl(a.cfg, m, true));
    ControllerSideOfOthers(s.effects);
    ControllerSideOfCtl(a.cfg, m, true);
  }

  /** `sendEvent` differs between hide flags only in controller messages. */
  lemma SendEventFlags(a: Adapter, m: Message, he: bool, hu: bool)
    ensures SendEvent(WithFlags(a, he, hu), m).adapter == WithFlags(SendEvent(a, m).adapter, he, hu)
    ensures HostSide(SendEvent(WithFlags(a, he, hu), m).effects) == HostSide(SendEvent(a, m).effects)
  {
    var b := WithFlags(a, he, hu);
    HostSideConcat(SendHost(a, m).effects, ToCtl(a.cfg, m, true));
    HostSideConcat(SendHost(b, m).effects, ToCtl(b.cfg, m, true));
    HostSideOfCtl(a.cfg, m, true);
    HostSideOfCtl(b.cfg, m, true);
  }

  lemma UpdateProgressFlags(a: Adapter, he: bool, hu: bool)
    requires Valid(a)
    ensures Valid(WithFlags(a, he, hu))
    ensures UpdateProgress(WithFlags(a, he, hu)).adapter == WithFlags(UpdateProgress(a).adapter, he, hu)
    ensures HostSide(UpdateProgress(WithFlags(a, he, hu)).effects) == HostSide(UpdateProgress(a).effects)
  {
    var b := WithFlags(a, he, hu);
    assert ProgressMessage(b) == ProgressMessage(a);
    assert b.(progressCurrent := b.progressCurrent + 1) == WithFlags(a.(progressCurrent := a.progressCurrent + 1), he, hu);
    SendEventFlags(a.(progressCurrent := a.progressCurrent + 1), ProgressMessage(a), he, hu);
    SendEventFlags(a, ProgressMessage(a), he, hu);
  }

  lemma ComponentEventFlags(a: Adapter, id: MsgId, args: Payload, he: bool, hu: bool)
    requires Valid(a) && IsProgressEvent(id)
    ensures Valid(WithFlags(a, he, hu))
    ensures ComponentEvent(WithFlags(a, he, hu), id, args).adapter == WithFlags(ComponentEvent(a, id, args).adapter, he, hu)
    ensures HostSide(ComponentEvent(WithFlags(a, he, hu), id, args).effects) == HostSide(ComponentEvent(a, id, args).effects)
  {
    var b := WithFlags(a, he, hu);
    var m := Message(id, args);
    var pa, pb := UpdateProgress(a), UpdateProgress(b);
    UpdateProgressFlags(a, he, hu);
    SendEventFlags(pa.adapter, m, he, hu);
    HostSideConcat(pa.effects, SendEvent(pa.adapter, m).effects);
    HostSideConcat(pb.effects, SendEvent(pb.adapter, m).effects);
  }

  lemma AddCardFlags(a: Adapter, args: Payload, he: bool, hu: bool)
    requires Valid(a) && NewCard(a, args)
    ensures Valid(WithFlags(a, he, hu)) && NewCard(WithFlags(a, he, hu), args)
    ensures AddCard(WithFlags(a, he, hu), args).adapter == WithFlags(AddCard(a, args).adapter, he, hu)
    ensures HostSide(AddCard(WithFlags(a, he, hu), args).effects) == HostSide(AddCard(a, args).effects)
  {
    var b := WithFlags(a, he, hu);
    var a1 := Grown(a, args.ref.value);
    var b1 := Grown(b, args.ref.value);
    assert b1 == WithFlags(a1, he, hu);
    UpdateProgressFlags(a1, he, hu);
    var pa, pb := UpdateProgress(a1), UpdateProgress(b1);
    var ta := ToCtl(a.cfg, Message(AdapterInit, CardAdded), false);
    var tb := ToCtl(b.cfg, Message(AdapterInit, CardAdded), false);
    assert AddCard(a, args) == Step(pa.adapter, ta + pa.effects + [InitCards(a1.invitesCard)]);
    assert AddCard(b, args) == Step(pb.adapter, tb + pb.effects + [InitCards(a1.invitesCard)]);
    HostSideOfCtl(a.cfg, Message(AdapterInit, CardAdded), false);
    HostSideOfCtl(b.cfg, Message(AdapterInit, CardAdded), false);
    HostSideConcat(ta, pa.effects);
    HostSideConcat(tb, pb.effects);
    HostSideConcat(ta + pa.effects, [InitCards(a1.invitesCard)]);
    HostSideConcat(tb + pb.effects, [InitCards(a1.invitesCard)]);
  }

  lemma DataEventFlags(a: Adapter, args: Payload, he: bool, hu: bool)
    requires Valid(a)
    ensures Valid(WithFlags(a, he, hu))
    ensures DataEvent(WithFlags(a, he, hu), args).adapter == WithFlags(DataEvent(a, args).adapter, he, hu)
    ensures HostSide(DataEvent(WithFlags(a, he, hu), args).effects) == HostSide(DataEvent(a, args).effects)
  {
    var m := Message(DataUpdate, args);
    if NewCard(a, args) {
      var b := WithFlags(a, he, hu);
      var ca, cb := AddCard(a, args), AddCard(b, args);
      AddCardFlags(a, args, he, hu);
      SendEventFlags(ca.adapter, m, he, hu);
      HostSideConcat(ca.effects, SendEvent(ca.adapter, m).effects);
      HostSideConcat(cb.effects, SendEvent(cb.adapter, m).effects);
    } else {
      SendEventFlags(a, m, he, hu);
    }
  }

  /** The hide flags only gate the controller: the adapter's state and
      everything sent to the host or the components are the same whatever
      the flags say. */
  lemma NotifyIgnoresHideFlags(a: Adapter, id: MsgId, args: Payload, he: bool, hu: bool)
    requires Valid(a)
    ensures Valid(WithFlags(a, he, hu))
    ensures Notify(WithFlags(a, he, hu), id, args).adapter == WithFlags(Notify(a, id, args).adapter, he, hu)
    ensures HostSide(Notify(WithFlags(a, he, hu), id, args).effects) == HostSide(Notify(a, id, args).effects)
  {
    if IsProgressEvent(id) {
      ComponentEventFlags(a, id, args, he, hu);
    } else if id.DataUpdate? {
      DataEventFlags(a, args, he, hu);
    }
  }

  /** The host's first message is the `Connected` manifest, followed by the
      first progress report, whatever happened before the handshake. */
  lemma ConnectedComesFirst(cfg: Config, name: string)
    ensures
      var r := Run(New(cfg));
      var h := Handshake(r.adapter, name);
      && |h.effects| >= 2
      && h.effects[0] == ToHost(Message(Connected, Settings(Api.Build(cfg.defines, cfg.viewerT, cfg.interfaces).manifest)))
      && h.effects[1] == ToHost(Message(Progress, ProgressInfo(1, BaseTotal(cfg))))
  {
    var a := New(cfg);
    RunStarts(a);
    RunQueuesManifest(a);
    var r := Run(a);
    var h := Handshake(r.adapter, name);
    assert h.effects[..2] == ToHosts(r.adapter.port.queue);
    assert h.effects[0] == h.effects[..2][0] && h.effects[1] == h.effects[..2][1];
  }
}

=== FILE: image.dfy ===
/** Image type sniffing from the first bytes of a buffer
    (`getImageType` in lib/image.js). */
module Image {
  import opened Common

  newtype byte = x: int | 0 <= x < 256

  /** `new DataView(buf, 0, 5)` throws a RangeError on a shorter buffer. */
  datatype Sniffed = RangeError | Type(mime: Option<string>)

  const HexDigits: string := "0123456789abcdef"

  function HexDigit(d: int): (c: char)
    requires 0 <= d < 16
    ensures c == HexDigits[d] && DigitValue(c) == d
  {
    if d < 10 then ('0' as int + d) as char else ('a' as int + d - 10) as char
  }

  /** The value of one lower-case hexadecimal digit. */
  function DigitValue(c: char): int
  {
    if '0' <= c <= '9' then c as int - '0' as int else c as int - 'a' as int + 10
  }

  /** Reads a string of hexadecimal digits back as a number, most
      significant digit first. */
  function ReadHex(h: string): int
  {
    if |h| == 0 then 0 else 16 * ReadHex(h[..|h| - 1]) + DigitValue(h[|h| - 1])
  }

  /** `n.toString(16)`: lower-case hexadecimal without zero padding. */
  function ToHex(n: byte): (h: string)
    ensures 1 <= |h| <= 2
    ensures |h| == 2 <==> n >= 16
    ensures forall k :: 0 <= k < |h| ==> h[k] in HexDigits
    ensures h[0] == '0' ==> n == 0
    ensures ReadHex(h) == n as int
  {
    if n < 16 then
      var h := [HexDigit(n as int)];
      assert h[..0] == [];
      h
    else
      var h := [HexDigit(n as int / 16), HexDigit(n as int % 16)];
      assert h[..1][..0] == [] && h[..1] == [h[0]];
      assert ReadHex(h[..1]) == DigitValue(h[0]);
      h
  }

  /** The textual dispatch the source performs on the concatenated hex
      strings of bytes 0 and 1. */
  function MimeOfHex(hex: string): Option<string>
  {
    if hex == "8950" then Some("image/png")
    else if hex == "4749" then Some("image/gif")
    else if hex == "424d" then Some("image/bmp")
    else if hex == "ffd8" then Some("image/jpeg")
    else None
  }

  function GetImageType(buf: seq<byte>): (r: Sniffed)
    ensures r.RangeError? <==> |buf| < 5
  {
    if |buf| < 5 then RangeError
    else Type(MimeOfHex(ToHex(buf[0]) + ToHex(buf[1])))
  }

  /** The magic numbers as a direct comparison of the two leading bytes. */
  function MagicMime(b0: byte, b1: byte): Option<string>
  {
    if b0 == 0x89 && b1 == 0x50 then Some("image/png")
    else if b0 == 0x47 && b1 == 0x49 then Some("image/gif")
    else if b0 == 0x42 && b1 == 0x4D then Some("image/bmp")
    else if b0 == 0xFF && b1 == 0xD8 then Some("image/jpeg")
    else None
  }

  lemma HexDigitInjective(a: int, b: int)
    requires 0 <= a < 16 && 0 <= b < 16
    ensures HexDigit(a) == HexDigit(b) ==> a == b
  {
  }

  /** Two bytes whose unpadded hex strings spell four given digits. */
  lemma HexPair(b0: byte, b1: byte, d0: int, d1: int, d2: int, d3: int)
    requires 0 <= d0 < 16 && 0 <= d1 < 16 && 0 <= d2 < 16 && 0 <= d3 < 16
    requires ToHex(b0) + ToHex(b1) == [HexDigit(d0), HexDigit(d1), HexDigit(d2), HexDigit(d3)]
    ensures b0 as int == d0 * 16 + d1 && b1 as int == d2 * 16 + d3
  {
    var h0, h1 := ToHex(b0), ToHex(b1);
    assert |h0| == 2 && |h1| == 2;
    assert (h0 + h1)[0] == h0[0] && (h0 + h1)[1] == h0[1];
    assert (h0 + h1)[2] == h1[0] && (h0 + h1)[3] == h1[1];
    HexDigitInjective(b0 as int / 16, d0);
    HexDigitInjective(b0 as int % 16, d1);
    HexDigitInjective(b1 as int / 16, d2);
    HexDigitInjective(b1 as int % 16, d3);
  }

  /** The hex-string dispatch is exactly the byte-pair comparison: a match
      needs both bytes to print as two digits, so the unpadded
      concatenation cannot confuse two different pairs. */
  lemma {:induction false} GetImageTypeIsMagic(buf: seq<byte>)
    requires |buf| >= 5
    ensures GetImageType(buf) == Type(MagicMime(buf[0], buf[1]))
    ensures GetImageType(buf).mime.Some? ==> buf[0] >= 0x10 && buf[1] >= 0x10
  {
    var b0, b1 := buf[0], buf[1];
    var hex := ToHex(b0) + ToHex(b1);
    assert "8950" == [HexDigit(8), HexDigit(9), HexDigit(5), HexDigit(0)];
    assert "4749" == [HexDigit(4), HexDigit(7), HexDigit(4), HexDigit(9)];
    assert "424d" == [HexDigit(4), HexDigit(2), HexDigit(4), HexDigit(13)];
    assert "ffd8" == [HexDigit(15), HexDigit(15), HexDigit(13), HexDigit(8)];
    if hex == "8950" {
      HexPair(b0, b1, 8, 9, 5, 0);
    } else if hex == "4749" {
      HexPair(b0, b1, 4, 7, 4, 9);
    } else if hex == "424d" {
      HexPair(b0, b1, 4, 2, 4, 13);
    } else if hex == "ffd8" {
      HexPair(b0, b1, 15, 15, 13, 8);
    } else {
      assert !(b0 == 0x89 && b1 == 0x50);
      assert !(b0 == 0x47 && b1 == 0x49);
      assert !(b0 == 0x42 && b1 == 0x4D);
      assert !(b0 == 0xFF && b1 == 0xD8);
    }
  }
}

=== FILE: invites.dfy ===
/** Invite-code handling of the adapter (`splitMulti` and `cleanInvites`
    in GlympseAdapter.js). */
module Invites {
  import opened Common

  /** What `splitMulti` returns: a falsy value as it is, any other string cut
      at every `;`. */
  datatype Multi = Unsplit(raw: Option<string>) | Parts(parts: seq<string>)

  function SplitMulti(v: Option<string>): (r: Multi)
    ensures r.Unsplit? <==> !Truthy(v)
    ensures r.Unsplit? ==> r.raw == v
    ensures r.Parts? ==> |r.parts| >= 1 && Join(r.parts, ';') == v.value
    ensures r.Parts? ==> forall i :: 0 <= i < |r.parts| ==> ';' !in r.parts[i]
  {
    if Truthy(v) then
      JoinSplit(v.value, ';');
      Parts(Split(v.value, ';'))
    else Unsplit(v)
  }

  /** A code of six or eight characters is shown in two halves. */
  predicate Hyphenated(len: int)
  {
    len == 6 || len == 8
  }

  /** One cleaned invite: upper case, and a hyphen between the halves of a
      six- or eight-character code. */
  function CleanInvite(s: string): (r: string)
    ensures Hyphenated(|s|) ==> |r| == |s| + 1 && r[|s| / 2] == '-'
    ensures Hyphenated(|s|) ==> r[..|s| / 2] + r[|s| / 2 + 1..] == Upper(s)
    ensures !Hyphenated(|s|) ==> r == Upper(s)
  {
    var u := Upper(s);
    var half := |u| / 2;
    if Hyphenated(|u|) then
      var r := u[..half] + "-" + u[half..half + half];
      assert r[..half] == u[..half] && r[half + 1..] == u[half..];
      r
    else u
  }

  /** `cleanInvites` on a list: each entry cleaned in place. */
  function CleanInvites(list: seq<string>): (r: seq<string>)
    ensures |r| == |list|
    ensures forall i :: 0 <= i < |list| ==> r[i] == CleanInvite(list[i])
  {
    seq(|list|, i requires 0 <= i < |list| => CleanInvite(list[i]))
  }

  /** Cleaning is idempotent: a cleaned code is already upper case and, with
      its hyphen, no longer six or eight characters long. */
  lemma CleanInviteIdempotent(s: string)
    ensures CleanInvite(CleanInvite(s)) == CleanInvite(s)
  {
    var r := CleanInvite(s);
    assert !Hyphenated(|r|);
    forall i | 0 <= i < |r| ensures UpperChar(r[i]) == r[i] {
      var half := |s| / 2;
      if Hyphenated(|s|) {
        if i < half {
          assert r[i] == r[..half][i] == Upper(s)[i];
        } else if i > half {
          assert r[i] == r[half + 1..][i - half - 1] == Upper(s)[i - 1];
        }
      }
    }
    assert Upper(r) == r;
  }

  lemma CleanInvitesIdempotent(list: seq<string>)
    ensures CleanInvites(CleanInvites(list)) == CleanInvites(list)
  {
    forall i | 0 <= i < |list| ensures CleanInvite(CleanInvite(list[i])) == CleanInvite(list[i]) {
      CleanInviteIdempotent(list[i]);
    }
  }
}

=== FILE: public_group.dfy ===
/** One public group's membership tracking (adapter/models/PublicGroup.js):
    the initial full-list load, incremental event polling, the tracked
    `(id, invite)` user list and the added/removed/swapped delta that is
    reported after every response.

    Fetches and the demo timer are effects the step functions return; the
    responses come back as inputs to `ProcessInitial` / `ProcessUpdate`. */
module PublicGroup {
  import opened Common

  type Id = string

  /** An invite code as the server sends it; `""` stands for every falsy
      invite (absent, `null` or empty). */
  type Invite = string

  datatype User = User(id: Id, invite: Invite)

  datatype ItemKind = InviteItem | SwapItem | LeaveItem | OtherItem(name: string)

  /** One entry of an `events` response. */
  datatype Item = Item(kind: ItemKind, member: Id, invite: Invite)

  datatype Swap = Swap(user: Id, invOld: Invite, invNew: Invite)

  /** What a response changed: invites added, invites removed, invites
      swapped for a member that stays. */
  datatype Delta = Delta(added: seq<Invite>, removed: seq<Invite>, swapped: seq<Swap>)

  const NoDelta := Delta([], [], [])

  predicate Changed(d: Delta)
  {
    |d.added| > 0 || |d.removed| > 0 || |d.swapped| > 0
  }

  function Concat(d: Delta, e: Delta): Delta
  {
    Delta(d.added + e.added, d.removed + e.removed, d.swapped + e.swapped)
  }

  lemma ConcatAssoc(a: Delta, b: Delta, c: Delta)
    ensures Concat(Concat(a, b), c) == Concat(a, Concat(b, c))
  {
  }

  /** A response body: a full member list (`type: 'group'`) or an event
      list (`type: 'events'`); `events` is the server's event counter and
      0 stands for an absent counter. */
  datatype Response =
    | GroupList(events: int, members: Option<seq<User>>)
    | EventList(events: int, items: seq<Item>)

  /** The fetch envelope `{status, response, time}`. */
  datatype FetchResult = FetchResult(status: bool, response: Response, time: int)

  datatype Group = Group(
    name: string,
    account: Option<string>,
    demo: bool,
    loaded: bool,
    next: int,
    lastUpdate: int,
    users: seq<User>)

  /** Work a group hands to its collaborators. */
  datatype Effect =
    | FetchInitial(group: string, branding: bool, account: Option<string>)
    | FetchEvents(group: string, next: int, account: Option<string>)
    | ScheduleDemoLoad(group: string, delayMs: int)

  /** Messages a group sends to its controller. */
  datatype Notice =
    | GroupStatus(group: string, time: int, delta: Delta)
    | GroupLoaded(group: string, status: bool, time: int, reported: Option<Delta>)

  const DemoLoadDelayMs := 200

  /** Names (lower-cased) of the built-in demo groups. */
  const DemoGroupNames: set<string> := {"bryanaroundseattle", "seattleteam", "demoshuttle"}

  predicate IsDemoName(name: string)
  {
    Lower(name) in DemoGroupNames
  }

  /** A freshly constructed group: not loaded, cursor 0, nobody tracked. */
  function NewGroup(name: string, account: Option<string>): (g: Group)
    ensures g.name == name && g.account == account
    ensures !g.loaded && g.next == 0 && g.users == []
    ensures g.demo <==> IsDemoName(name)
  {
    Group(name, account, IsDemoName(name), false, 0, 0, [])
  }

  // ---------------------------------------------------------------------
  // Users
  // ---------------------------------------------------------------------

  predicate Distinct(users: seq<User>)
  {
    forall i, j :: 0 <= i < j < |users| ==> users[i].id != users[j].id
  }

  function Ids(users: seq<User>): set<Id>
  {
    set u | u in users :: u.id
  }

  /** `findUser`: the position of the last user with this id, scanning from
      the end of the list. */
  function FindUser(users: seq<User>, id: Id): (r: Option<nat>)
    ensures r.Some? ==> r.value < |users| && users[r.value].id == id
    ensures r.Some? ==> forall j :: r.value < j < |users| ==> users[j].id != id
    ensures r.None? <==> forall j :: 0 <= j < |users| ==> users[j].id != id
  {
    if |users| == 0 then None
    else if users[|users| - 1].id == id then Some(|users| - 1)
    else FindUser(users[..|users| - 1], id)
  }

  /** The membership a user list stands for: id to invite, a later entry
      winning over an earlier one. */
  function AsMap(users: seq<User>): map<Id, Invite>
  {
    if |users| == 0 then map[]
    else AsMap(users[..|users| - 1])[users[|users| - 1].id := users[|users| - 1].invite]
  }

  /** `getInvites`: every tracked invite, from the last user to the first. */
  method GetInvites(users: seq<User>) returns (invites: seq<Invite>)
    ensures |invites| == |users|
    ensures forall i :: 0 <= i < |users| ==> invites[i] == users[|users| - 1 - i].invite
  {
    invites := [];
    var i := |users| - 1;
    while i >= 0
      invariant -1 <= i < |users|
      invariant |invites| == |users| - 1 - i
      invariant forall k :: 0 <= k < |invites| ==> invites[k] == users[|users| - 1 - k].invite
    {
      invites := invites + [users[i].invite];
      i := i - 1;
    }
  }

  lemma {:induction false} AsMapKeys(users: seq<User>)
    ensures AsMap(users).Keys == Ids(users)
  {
    if |users| > 0 {
      var init := users[..|users| - 1];
      AsMapKeys(init);
      assert users == init + [users[|users| - 1]];
      assert Ids(users) == Ids(init) + {users[|users| - 1].id};
    }
  }

  /** `findUser` and the membership map agree on every id. */
  lemma {:induction false} FindUserInMap(users: seq<User>, id: Id)
    ensures FindUser(users, id).None? <==> id !in AsMap(users)
    ensures FindUser(users, id).Some? ==> AsMap(users)[id] == users[FindUser(users, id).value].invite
  {
    AsMapKeys(users);
    if |users| > 0 && users[|users| - 1].id != id {
      var init := users[..|users| - 1];
      FindUserInMap(init, id);
    }
  }

  lemma {:induction false} AsMapAt(users: seq<User>, k: nat)
    requires Distinct(users) && k < |users|
    ensures users[k].id in AsMap(users) && AsMap(users)[users[k].id] == users[k].invite
  {
    var r := FindUser(users, users[k].id);
    FindUserInMap(users, users[k].id);
    assert r == Some(k);
  }

  /** Replacing one user's invite replaces it in the membership. */
  lemma {:induction false} AsMapSetInvite(users: seq<User>, k: nat, v: Invite)
    requires Distinct(users) && k < |users|
    ensures AsMap(users[k := User(users[k].id, v)]) == AsMap(users)[users[k].id := v]
    decreases |users|
  {
    var n := |users| - 1;
    var users' := users[k := User(users[k].id, v)];
    assert users'[..n] == if k == n then users[..n] else users[..n][k := User(users[k].id, v)];
    if k < n {
      AsMapSetInvite(users[..n], k, v);
    }
  }

  /** Deleting one user deletes it from the membership. */
  lemma {:induction false} AsMapRemoveAt(users: seq<User>, k: nat)
    requires Distinct(users) && k < |users|
    ensures AsMap(users[..k] + users[k + 1..]) == AsMap(users) - {users[k].id}
    decreases |users|
  {
    var n := |users| - 1;
    var init := users[..n];
    var last := users[n];
    DistinctInit(users);
    AsMapKeys(init);
    assert AsMap(users) == AsMap(init)[last.id := last.invite];
    if k == n {
      assert users[..k] + users[k + 1..] == init;
      RemoveFresh(AsMap(init), last.id, last.invite);
    } else {
      var rest := init[..k] + init[k + 1..];
      assert users[..k] + users[k + 1..] == rest + [last];
      AsMapSnoc(rest, last);
      assert init[k] == users[k];
      AsMapRemoveAt(init, k);
      RemoveUpdateCommute(AsMap(init), users[k].id, last.id, last.invite);
    }
  }

  lemma RemoveFresh(m: map<Id, Invite>, x: Id, v: Invite)
    requires x !in m
    ensures m[x := v] - {x} == m
  {
  }

  lemma RemoveUpdateCommute(m: map<Id, Invite>, x: Id, y: Id, v: Invite)
    requires x != y
    ensures (m - {x})[y := v] == m[y := v] - {x}
  {
  }

  /** Appending a user sets its entry. */
  lemma AsMapSnoc(users: seq<User>, u: User)
    ensures AsMap(users + [u]) == AsMap(users)[u.id := u.invite]
  {
    assert (users + [u])[..|users|] == users;
  }

  // ---------------------------------------------------------------------
  // Event compression
  // ---------------------------------------------------------------------

  predicate Relevant(kind: ItemKind)
  {
    !kind.OtherItem?
  }

  /** `members.splice(members.indexOf(m), 1)` on the event list. */
  function RemoveFirstFor(events: seq<Item>, m: Id): seq<Item>
  {
    if |events| == 0 then []
    else if events[0].member == m then events[1..]
    else [events[0]] + RemoveFirstFor(events[1..], m)
  }

  /** One turn of the clean-up loop: an `invite`/`swap`/`leave` item
      replaces any earlier item for its member and goes to the end. */
  function CompressStep(events: seq<Item>, item: Item): seq<Item>
  {
    if Relevant(item.kind) then RemoveFirstFor(events, item.member) + [item] else events
  }

  /** The clean-up loop over a whole `items` list. */
  function Compress(items: seq<Item>): seq<Item>
  {
    if |items| == 0 then []
    else CompressStep(Compress(items[..|items| - 1]), items[|items| - 1])
  }

  predicate Mentions(items: seq<Item>, m: Id)
  {
    exists i :: 0 <= i < |items| && Relevant(items[i].kind) && items[i].member == m
  }

  /** Reference definition: keep exactly the relevant items that no later
      relevant item for the same member overrides, in their original order. */
  function LastEvents(items: seq<Item>): seq<Item>
  {
    if |items| == 0 then []
    else
      (if Relevant(items[0].kind) && !Mentions(items[1..], items[0].member) then [items[0]] else [])
      + LastEvents(items[1..])
  }

  predicate DistinctMembers(events: seq<Item>)
  {
    forall i, j :: 0 <= i < j < |events| ==> events[i].member != events[j].member
  }

  lemma MentionsConcat(a: seq<Item>, b: seq<Item>, m: Id)
    ensures Mentions(a + b, m) <==> Mentions(a, m) || Mentions(b, m)
  {
    if Mentions(a + b, m) {
      var i :| 0 <= i < |a + b| && Relevant((a + b)[i].kind) && (a + b)[i].member == m;
      if i < |a| {
        assert a[i] == (a + b)[i];
      } else {
        assert b[i - |a|] == (a + b)[i];
      }
    }
    if Mentions(a, m) {
      var i :| 0 <= i < |a| && Relevant(a[i].kind) && a[i].member == m;
      assert (a + b)[i] == a[i];
    }
    if Mentions(b, m) {
      var i :| 0 <= i < |b| && Relevant(b[i].kind) && b[i].member == m;
      assert (a + b)[|a| + i] == b[i];
    }
  }

  lemma MentionsSingle(x: Item, m: Id)
    ensures Mentions([x], m) <==> Relevant(x.kind) && x.member == m
  {
    if Relevant(x.kind) && x.member == m {
      assert [x][0] == x;
    }
  }

  lemma {:induction false} LastEventsRelevant(items: seq<Item>)
    ensures forall e :: e in LastEvents(items) ==> Relevant(e.kind)
  {
    if |items| > 0 {
      LastEventsRelevant(items[1..]);
    }
  }

  /** The reference list mentions exactly the members the input mentions. */
  lemma {:induction false} LastEventsMembers(items: seq<Item>, m: Id)
    ensures Mentions(LastEvents(items), m) <==> Mentions(items, m)
  {
    if |items| > 0 {
      var y := items[0];
      var ys := items[1..];
      var head := if Relevant(y.kind) && !Mentions(ys, y.member) then [y] else [];
      var rest := LastEvents(ys);
      LastEventsMembers(ys, m);
      assert LastEvents(items) == head + rest;
      MentionsConcat(head, rest, m);
      assert items == [y] + ys;
      MentionsConcat([y], ys, m);
      MentionsSingle(y, m);
      if head != [] {
        MentionsSingle(y, m);
      } else {
        assert !Mentions(head, m);
      }
    }
  }

  /** The reference list holds at most one event per member. */
  lemma {:induction false} LastEventsDistinct(items: seq<Item>)
    ensures DistinctMembers(LastEvents(items))
  {
    if |items| > 0 {
      var y := items[0];
      var ys := items[1..];
      var rest := LastEvents(ys);
      LastEventsDistinct(ys);
      if Relevant(y.kind) && !Mentions(ys, y.member) {
        LastEventsMembers(ys, y.member);
        LastEventsRelevant(ys);
        assert !Mentions(rest, y.member);
        forall j | 0 <= j < |rest| ensures rest[j].member != y.member {
          assert rest[j] in rest;
        }
        var l := [y] + rest;
        assert LastEvents(items) == l;
        forall i, j | 0 <= i < j < |l| ensures l[i].member != l[j].member {
          assert l[j] == rest[j - 1];
          if i > 0 {
            assert l[i] == rest[i - 1];
          }
        }
      } else {
        assert LastEvents(items) == rest;
      }
    }
  }

  lemma {:induction false} RemoveFirstForAbsent(events: seq<Item>, m: Id)
    requires forall i :: 0 <= i < |events| ==> events[i].member != m
    ensures RemoveFirstFor(events, m) == events
  {
    if |events| > 0 {
      RemoveFirstForAbsent(events[1..], m);
    }
  }

  /** Appending one item to the input appends one step to the reference. */
  lemma {:induction false} LastEventsSnoc(items: seq<Item>, x: Item)
    ensures LastEvents(items + [x]) == CompressStep(LastEvents(items), x)
    decreases |items|
  {
    if |items| == 0 {
      assert items + [x] == [x];
      assert [x][1..] == [];
      assert !Mentions([], x.member);
    } else {
      var y := items[0];
      var ys := items[1..];
      assert (items + [x])[0] == y;
      assert (items + [x])[1..] == ys + [x];
      LastEventsSnoc(ys, x);
      var k := LastEvents(ys);
      MentionsConcat(ys, [x], y.member);
      MentionsSingle(x, y.member);
      var keptBefore := Relevant(y.kind) && !Mentions(ys, y.member);
      var keptAfter := Relevant(y.kind) && !Mentions(ys + [x], y.member);
      assert LastEvents(items + [x]) == (if keptAfter then [y] else []) + CompressStep(k, x);
      assert LastEvents(items) == (if keptBefore then [y] else []) + k;
      if Relevant(x.kind) && x.member == y.member && keptBefore {
        LastEventsMembers(ys, y.member);
        LastEventsRelevant(ys);
        assert !Mentions(k, y.member);
        forall i | 0 <= i < |k| ensures k[i].member != y.member {
          assert k[i] in k;
        }
        RemoveFirstForAbsent(k, y.member);
        assert ([y] + k)[1..] == k;
      } else if Relevant(x.kind) && keptBefore {
        assert keptAfter;
        assert ([y] + k)[0] == y && ([y] + k)[1..] == k;
        var removed := RemoveFirstFor(k, x.member);
        assert RemoveFirstFor([y] + k, x.member) == [y] + removed;
        assert LastEvents(items + [x]) == [y] + (removed + [x]);
        assert CompressStep([y] + k, x) == ([y] + removed) + [x];
        assert LastEvents(items) == [y] + k;
        assert [y] + (removed + [x]) == ([y] + removed) + [x];
      } else if Relevant(x.kind) {
        assert !keptAfter;
        assert LastEvents(items) == k;
      } else {
        assert keptAfter == keptBefore;
      }
    }
  }

  /** The clean-up loop keeps, per member, only that member's last
      `invite`/`swap`/`leave` item, ordered by where those last items stand
      in the input, and drops every other kind of item. */
  lemma {:induction false} CompressIsLastEvents(items: seq<Item>)
    ensures Compress(items) == LastEvents(items)
    ensures DistinctMembers(Compress(items))
    decreases |items|
  {
    if |items| > 0 {
      var init := items[..|items| - 1];
      var x := items[|items| - 1];
      CompressIsLastEvents(init);
      assert items == init + [x];
      LastEventsSnoc(init, x);
    }
    LastEventsDistinct(items);
  }

  // ---------------------------------------------------------------------
  // Applying events
  // ---------------------------------------------------------------------

  /** The tracked users and the delta collected so far. */
  datatype Tracked = Tracked(users: seq<User>, delta: Delta)

  /** Membership-level meaning of one event: `invite`/`swap` set the
      member's invite, `leave` drops the member. */
  function UpdateMap(m: map<Id, Invite>, e: Item): map<Id, Invite>
  {
    match e.kind
    case LeaveItem => m - {e.member}
    case OtherItem(_) => m
    case _ => m[e.member := e.invite]
  }

  /** Every event applied to the membership in order, no compression. */
  function UpdateMapAll(m: map<Id, Invite>, es: seq<Item>): map<Id, Invite>
    decreases |es|
  {
    if |es| == 0 then m else UpdateMapAll(UpdateMap(m, es[0]), es[1..])
  }

  /** What one event reports, judged against the membership `m`. */
  function Contribution(m: map<Id, Invite>, e: Item): Delta
  {
    match e.kind
    case LeaveItem => if e.member in m then Delta([], [m[e.member]], []) else NoDelta
    case OtherItem(_) => NoDelta
    case _ =>
      if e.member !in m then Delta([e.invite], [], [])
      else if m[e.member] == e.invite then NoDelta
      else Delta([], [], [Swap(e.member, m[e.member], e.invite)])
  }

  /** Reference delta of an event list: each event judged against the
      membership before the whole list. */
  function EventDelta(m: map<Id, Invite>, es: seq<Item>): Delta
  {
    if |es| == 0 then NoDelta else Concat(Contribution(m, es[0]), EventDelta(m, es[1..]))
  }

  /** Applying one cleaned-up event to the user list (the second loop of
      `processGroupUpdate`). */
  function ApplyEvent(t: Tracked, e: Item): (r: Tracked)
    ensures Distinct(t.users) ==> Distinct(r.users)
  {
    match e.kind
    case OtherItem(_) => t
    case LeaveItem =>
      (match FindUser(t.users, e.member)
       case None => t
       case Some(k) =>
         DistinctRemoveAt(t.users, k);
         Tracked(t.users[..k] + t.users[k + 1..],
                 t.delta.(removed := t.delta.removed + [t.users[k].invite])))
    case _ =>
      (match FindUser(t.users, e.member)
       case None =>
         DistinctAppend(t.users, User(e.member, e.invite));
         Tracked(t.users + [User(e.member, e.invite)], t.delta.(added := t.delta.added + [e.invite]))
       case Some(k) =>
         if t.users[k].invite == e.invite then t
         else
           DistinctSetAt(t.users, k, User(e.member, e.invite));
           Tracked(t.users[k := User(e.member, e.invite)],
                   t.delta.(swapped := t.delta.swapped + [Swap(e.member, t.users[k].invite, e.invite)])))
  }

  lemma DistinctRemoveAt(users: seq<User>, k: nat)
    requires k < |users|
    ensures Distinct(users) ==> Distinct(users[..k] + users[k + 1..])
  {
    var l := users[..k] + users[k + 1..];
    assert forall i :: 0 <= i < |l| ==> l[i] == users[if i < k then i else i + 1];
  }

  lemma DistinctAppend(users: seq<User>, u: User)
    requires forall j :: 0 <= j < |users| ==> users[j].id != u.id
    ensures Distinct(users) ==> Distinct(users + [u])
  {
    var l := users + [u];
    assert forall i :: 0 <= i < |users| ==> l[i] == users[i];
  }

  lemma DistinctSetAt(users: seq<User>, k: nat, u: User)
    requires k < |users| && users[k].id == u.id
    ensures Distinct(users) ==> Distinct(users[k := u])
  {
  }

  function ApplyEvents(t: Tracked, es: seq<Item>): (r: Tracked)
    ensures Distinct(t.users) ==> Distinct(r.users)
    decreases |es|
  {
    if |es| == 0 then t else ApplyEvents(ApplyEvent(t, es[0]), es[1..])
  }

  /** One event changes the membership exactly as `UpdateMap` says and
      appends exactly its `Contribution` to the delta. */
  lemma {:induction false} ApplyEventMeaning(t: Tracked, e: Item)
    requires Distinct(t.users)
    ensures AsMap(ApplyEvent(t, e).users) == UpdateMap(AsMap(t.users), e)
    ensures ApplyEvent(t, e).delta == Concat(t.delta, Contribution(AsMap(t.users), e))
  {
    ApplyEventMap(t, e);
    ApplyEventDelta(t, e);
  }

  lemma {:induction false} ApplyEventMap(t: Tracked, e: Item)
    requires Distinct(t.users)
    ensures AsMap(ApplyEvent(t, e).users) == UpdateMap(AsMap(t.users), e)
  {
    var r := FindUser(t.users, e.member);
    var m := AsMap(t.users);
    FindUserInMap(t.users, e.member);
    match e.kind
    case OtherItem(_) =>
    case LeaveItem =>
      if r.Some? {
        AsMapRemoveAt(t.users, r.value);
      } else {
        RemoveAbsent(m, e.member);
      }
    case _ =>
      if r.None? {
        AsMapSnoc(t.users, User(e.member, e.invite));
      } else if t.users[r.value].invite != e.invite {
        AsMapSetInvite(t.users, r.value, e.invite);
      } else {
        UpdateSame(m, e.member, e.invite);
      }
  }

  lemma {:induction false} ApplyEventDelta(t: Tracked, e: Item)
    ensures ApplyEvent(t, e).delta == Concat(t.delta, Contribution(AsMap(t.users), e))
  {
    var r := FindUser(t.users, e.member);
    var m := AsMap(t.users);
    var d := t.delta;
    FindUserInMap(t.users, e.member);
    assert d.added + [] == d.added && d.removed + [] == d.removed && d.swapped + [] == d.swapped;
    match e.kind
    case OtherItem(_) =>
    case LeaveItem =>
      if r.Some? {
        assert Contribution(m, e) == Delta([], [t.users[r.value].invite], []);
      }
    case _ =>
      if r.None? {
        assert Contribution(m, e) == Delta([e.invite], [], []);
      } else if t.users[r.value].invite != e.invite {
        assert Contribution(m, e) == Delta([], [], [Swap(e.member, t.users[r.value].invite, e.invite)]);
      } else {
        assert Contribution(m, e) == NoDelta;
      }
  }

  lemma RemoveAbsent(m: map<Id, Invite>, x: Id)
    requires x !in m
    ensures m - {x} == m
  {
  }

  lemma UpdateSame(m: map<Id, Invite>, x: Id, v: Invite)
    requires x in m && m[x] == v
    ensures m[x := v] == m
  {
  }

  /** Membership after applying events equals the reference update. */
  lemma {:induction false} ApplyEventsMap(t: Tracked, es: seq<Item>)
    requires Distinct(t.users)
    ensures AsMap(ApplyEvents(t, es).users) == UpdateMapAll(AsMap(t.users), es)
    decreases |es|
  {
    if |es| > 0 {
      ApplyEventMeaning(t, es[0]);
      ApplyEventsMap(ApplyEvent(t, es[0]), es[1..]);
    }
  }

  /** Events for other members are judged the same before and after an
      event for `e.member`. */
  lemma {:induction false} EventDeltaSkips(m: map<Id, Invite>, e: Item, es: seq<Item>)
    requires forall i :: 0 <= i < |es| ==> es[i].member != e.member
    ensures EventDelta(UpdateMap(m, e), es) == EventDelta(m, es)
    decreases |es|
  {
    if |es| > 0 {
      assert es[0].member != e.member;
      assert Contribution(UpdateMap(m, e), es[0]) == Contribution(m, es[0]);
      EventDeltaSkips(m, e, es[1..]);
    }
  }

  lemma DistinctMembersTail(es: seq<Item>)
    requires |es| > 0 && DistinctMembers(es)
    ensures DistinctMembers(es[1..])
    ensures forall i :: 0 <= i < |es[1..]| ==> es[1..][i].member != es[0].member
  {
    var rest := es[1..];
    forall i, j | 0 <= i < j < |rest| ensures rest[i].member != rest[j].member {
      assert rest[i] == es[i + 1] && rest[j] == es[j + 1];
    }
    forall i | 0 <= i < |rest| ensures rest[i].member != es[0].member {
      assert rest[i] == es[i + 1];
    }
  }

  /** With one event per member, the reported delta is each event judged
      against the membership before the list. */
  lemma {:induction false} ApplyEventsDelta(t: Tracked, es: seq<Item>)
    requires Distinct(t.users) && DistinctMembers(es)
    ensures ApplyEvents(t, es).delta == Concat(t.delta, EventDelta(AsMap(t.users), es))
    decreases |es|
  {
    if |es| > 0 {
      var m := AsMap(t.users);
      var t1 := ApplyEvent(t, es[0]);
      var c := Contribution(m, es[0]);
      ApplyEventMeaning(t, es[0]);
      assert t1.delta == Concat(t.delta, c);
      DistinctMembersTail(es);
      EventDeltaSkips(m, es[0], es[1..]);
      var later := EventDelta(m, es[1..]);
      assert EventDelta(AsMap(t1.users), es[1..]) == later;
      ApplyEventsDelta(t1, es[1..]);
      assert ApplyEvents(t, es) == ApplyEvents(t1, es[1..]);
      assert EventDelta(m, es) == Concat(c, later);
      ConcatAssoc(t.delta, c, later);
    }
  }

  lemma {:induction false} UpdateMapAllOverride(m1: map<Id, Invite>, m2: map<Id, Invite>, k: Id, es: seq<Item>)
    requires m1 - {k} == m2 - {k}
    requires Mentions(es, k)
    ensures UpdateMapAll(m1, es) == UpdateMapAll(m2, es)
    decreases |es|
  {
    var e := es[0];
    if Relevant(e.kind) && e.member == k {
      assert UpdateMap(m1, e) == UpdateMap(m2, e) by {
        if e.kind.LeaveItem? {
          assert m1 - {k} == m2 - {k};
        } else {
          assert m1[k := e.invite] == (m1 - {k})[k := e.invite];
          assert m2[k := e.invite] == (m2 - {k})[k := e.invite];
        }
      }
    } else {
      var i :| 0 <= i < |es| && Relevant(es[i].kind) && es[i].member == k;
      assert es[1..][i - 1] == es[i];
      assert UpdateMap(m1, e) - {k} == UpdateMap(m2, e) - {k} by {
        if e.kind.LeaveItem? {
          assert m1 - {k} - {e.member} == m1 - {e.member} - {k};
          assert m2 - {k} - {e.member} == m2 - {e.member} - {k};
        } else if !e.kind.OtherItem? {
          assert m1[e.member := e.invite] - {k} == (m1 - {k})[e.member := e.invite];
          assert m2[e.member := e.invite] - {k} == (m2 - {k})[e.member := e.invite];
        }
      }
      UpdateMapAllOverride(UpdateMap(m1, e), UpdateMap(m2, e), k, es[1..]);
    }
  }

  lemma UpdateMapAllCons(m: map<Id, Invite>, y: Item, es: seq<Item>)
    ensures UpdateMapAll(m, [y] + es) == UpdateMapAll(UpdateMap(m, y), es)
  {
    assert ([y] + es)[0] == y && ([y] + es)[1..] == es;
  }

  lemma ForgetUpdate(m: map<Id, Invite>, x: Id, v: Invite)
    ensures m[x := v] - {x} == m - {x}
  {
  }

  /** Dropping overridden events does not change the final membership. */
  lemma {:induction false} LastEventsSameMembership(m: map<Id, Invite>, items: seq<Item>)
    ensures UpdateMapAll(m, LastEvents(items)) == UpdateMapAll(m, items)
    decreases |items|
  {
    if |items| > 0 {
      var y := items[0];
      var rest := items[1..];
      assert UpdateMapAll(m, items) == UpdateMapAll(UpdateMap(m, y), rest);
      if Relevant(y.kind) && !Mentions(rest, y.member) {
        assert LastEvents(items) == [y] + LastEvents(rest);
        UpdateMapAllCons(m, y, LastEvents(rest));
        LastEventsSameMembership(UpdateMap(m, y), rest);
      } else {
        assert LastEvents(items) == LastEvents(rest);
        LastEventsSameMembership(m, rest);
        if Relevant(y.kind) {
          if !y.kind.LeaveItem? {
            ForgetUpdate(m, y.member, y.invite);
          }
          UpdateMapAllOverride(UpdateMap(m, y), m, y.member, rest);
        } else {
          assert UpdateMap(m, y) == m;
        }
      }
    }
  }

  /** The events path of `processGroupUpdate` on the user list. */
  function ApplyItems(users: seq<User>, items: seq<Item>): Tracked
  {
    ApplyEvents(Tracked(users, NoDelta), Compress(items))
  }

  /** Compress-then-apply leaves exactly the membership that applying every
      event in order would, reports each member at most once, judged
      against the membership before the response, and keeps ids distinct. */
  lemma ApplyItemsMeaning(users: seq<User>, items: seq<Item>)
    requires Distinct(users)
    ensures AsMap(ApplyItems(users, items).users) == UpdateMapAll(AsMap(users), items)
    ensures ApplyItems(users, items).delta == EventDelta(AsMap(users), LastEvents(items))
    ensures Distinct(ApplyItems(users, items).users)
  {
    CompressIsLastEvents(items);
    ApplyEventsMap(Tracked(users, NoDelta), Compress(items));
    LastEventsSameMembership(AsMap(users), items);
    ApplyEventsDelta(Tracked(users, NoDelta), Compress(items));
    var d := EventDelta(AsMap(users), LastEvents(items));
    assert Concat(NoDelta, d) == d;
  }

  // ---------------------------------------------------------------------
  // Full-list sync
  // ---------------------------------------------------------------------

  function Reverse<T>(s: seq<T>): (r: seq<T>)
    ensures |r| == |s|
  {
    if |s| == 0 then [] else Reverse(s[1..]) + [s[0]]
  }

  lemma {:induction false} ReverseConcat<T>(a: seq<T>, b: seq<T>)
    ensures Reverse(a + b) == Reverse(b) + Reverse(a)
    decreases |a|
  {
    if |a| == 0 {
      assert a + b == b;
    } else {
      assert (a + b)[1..] == a[1..] + b;
      ReverseConcat(a[1..], b);
    }
  }

  lemma DistinctInit(users: seq<User>)
    requires |users| > 0 && Distinct(users)
    ensures Distinct(users[..|users| - 1])
    ensures users[|users| - 1].id !in Ids(users[..|users| - 1])
  {
    var init := users[..|users| - 1];
    forall v | v in init ensures v.id != users[|users| - 1].id {
      var i :| 0 <= i < |init| && init[i] == v;
      assert users[i] == v;
    }
  }

  lemma DistinctSnoc(users: seq<User>, u: User)
    requires Distinct(users) && u.id !in Ids(users)
    ensures Distinct(users + [u])
    ensures Ids(users + [u]) == Ids(users) + {u.id}
  {
    var l := users + [u];
    forall i, j | 0 <= i < j < |l| ensures l[i].id != l[j].id {
      assert l[i] == users[i];
      if j < |users| {
        assert l[j] == users[j];
      } else {
        assert users[i] in users;
      }
    }
  }

  lemma IdsSnoc(users: seq<User>, u: User)
    ensures Ids(users + [u]) == Ids(users) + {u.id}
  {
  }

  /** What the first loop of `parseGroupListResponse` leaves: the surviving
      users and the removals and swaps it recorded. */
  datatype Synced = Synced(users: seq<User>, removed: seq<Invite>, swapped: seq<Swap>)

  /** First loop: walks the tracked users from the last to the first; a user
      with no member entry is removed, a user whose member entry (the last
      one with that id) has another invite takes that invite. */
  function SyncTracked(users: seq<User>, members: seq<User>): (r: Synced)
    ensures Ids(r.users) <= Ids(users)
    ensures Distinct(users) ==> Distinct(r.users)
    decreases |users|
  {
    if |users| == 0 then Synced([], [], [])
    else
      var init := users[..|users| - 1];
      var u := users[|users| - 1];
      var rest := SyncTracked(init, members);
      assert users == init + [u];
      IdsSnoc(init, u);
      match FindUser(members, u.id)
      case None => Synced(rest.users, [u.invite] + rest.removed, rest.swapped)
      case Some(j) =>
        var inv := members[j].invite;
        IdsSnoc(rest.users, User(u.id, inv));
        assert Distinct(users) ==> Distinct(rest.users + [User(u.id, inv)]) by {
          if Distinct(users) {
            DistinctInit(users);
            DistinctSnoc(rest.users, User(u.id, inv));
          }
        }
        Synced(rest.users + [User(u.id, inv)], rest.removed,
               (if u.invite != inv then [Swap(u.id, u.invite, inv)] else []) + rest.swapped)
  }

  /** What the second loop leaves: the user list and the invites it added. */
  datatype Joined = Joined(users: seq<User>, added: seq<Invite>)

  /** Whether the second loop appends `mem` to `users`. */
  predicate Joins(users: seq<User>, mem: User)
  {
    FindUser(users, mem.id).None? && mem.invite != ""
  }

  /** Second loop: walks `members` from the last to the first and appends
      each member that has a truthy invite and is not tracked yet. */
  function AddUntracked(users: seq<User>, members: seq<User>): (r: Joined)
    ensures Distinct(users) ==> Distinct(r.users)
    decreases |members|
  {
    if |members| == 0 then Joined(users, [])
    else
      var mem := members[|members| - 1];
      var users1 := if Joins(users, mem) then users + [mem] else users;
      assert Distinct(users) ==> Distinct(users1) by {
        if Distinct(users) && Joins(users, mem) {
          FindUserInMap(users, mem.id);
          AsMapKeys(users);
          DistinctSnoc(users, mem);
        }
      }
      var rest := AddUntracked(users1, members[..|members| - 1]);
      Joined(rest.users, (if Joins(users, mem) then [mem.invite] else []) + rest.added)
  }

  /** Invites of the users whose id is not in `ids`, in list order. */
  function Departed(users: seq<User>, ids: set<Id>): seq<Invite>
  {
    if |users| == 0 then [] else DepartureOf(users[0], ids) + Departed(users[1..], ids)
  }

  function DepartureOf(u: User, ids: set<Id>): seq<Invite>
  {
    if u.id in ids then [] else [u.invite]
  }

  /** Swaps owed to the users that `current` lists under another invite,
      in list order. */
  function Reswapped(users: seq<User>, current: map<Id, Invite>): seq<Swap>
  {
    if |users| == 0 then [] else SwapOf(users[0], current) + Reswapped(users[1..], current)
  }

  function SwapOf(u: User, current: map<Id, Invite>): seq<Swap>
  {
    if u.id in current && current[u.id] != u.invite then [Swap(u.id, u.invite, current[u.id])] else []
  }

  /** Invites of the members outside `tracked` that have a truthy invite,
      in list order. */
  function Joining(members: seq<User>, tracked: set<Id>): seq<Invite>
  {
    if |members| == 0 then [] else JoinOf(members[0], tracked) + Joining(members[1..], tracked)
  }

  function JoinOf(m: User, tracked: set<Id>): seq<Invite>
  {
    if m.id !in tracked && m.invite != "" then [m.invite] else []
  }

  /** The tracked ids that `n` still lists, with the listed invites. */
  function Kept(m: map<Id, Invite>, n: map<Id, Invite>): map<Id, Invite>
  {
    map id | id in m && id in n :: n[id]
  }

  /** `m` plus every id of `n` outside `m` that has a truthy invite. */
  function WithJoiners(m: map<Id, Invite>, n: map<Id, Invite>): map<Id, Invite>
  {
    m + Joiners(m, n)
  }

  /** The ids of `n` outside `m` that have a truthy invite. */
  function Joiners(m: map<Id, Invite>, n: map<Id, Invite>): map<Id, Invite>
  {
    map id | id in n && id !in m && n[id] != "" :: n[id]
  }

  /** Reference membership after a full list `n` replaces the membership
      `m`: a listed id stays or joins, with the listed invite, when it was
      tracked or its invite is truthy. */
  function AfterFullList(m: map<Id, Invite>, n: map<Id, Invite>): map<Id, Invite>
  {
    map id | id in n && (id in m || n[id] != "") :: n[id]
  }

  lemma DepartedSnoc(users: seq<User>, u: User, ids: set<Id>)
    ensures Departed(users + [u], ids) == Departed(users, ids) + DepartureOf(u, ids)
    decreases |users|
  {
    if |users| == 0 {
      assert users + [u] == [u];
    } else {
      var l := users + [u];
      assert l[0] == users[0] && l[1..] == users[1..] + [u];
      DepartedSnoc(users[1..], u, ids);
      assert Departed(l, ids) == DepartureOf(users[0], ids) + Departed(users[1..] + [u], ids);
    }
  }

  lemma ReswappedSnoc(users: seq<User>, u: User, current: map<Id, Invite>)
    ensures Reswapped(users + [u], current) == Reswapped(users, current) + SwapOf(u, current)
    decreases |users|
  {
    if |users| == 0 {
      assert users + [u] == [u];
    } else {
      var l := users + [u];
      assert l[0] == users[0] && l[1..] == users[1..] + [u];
      ReswappedSnoc(users[1..], u, current);
      assert Reswapped(l, current) == SwapOf(users[0], current) + Reswapped(users[1..] + [u], current);
    }
  }

  lemma JoiningSnoc(members: seq<User>, m: User, tracked: set<Id>)
    ensures Joining(members + [m], tracked) == Joining(members, tracked) + JoinOf(m, tracked)
    decreases |members|
  {
    if |members| == 0 {
      assert members + [m] == [m];
    } else {
      var l := members + [m];
      assert l[0] == members[0] && l[1..] == members[1..] + [m];
      JoiningSnoc(members[1..], m, tracked);
      assert Joining(l, tracked) == JoinOf(members[0], tracked) + Joining(members[1..] + [m], tracked);
    }
  }

  lemma JoiningSameTracked(members: seq<User>, t1: set<Id>, t2: set<Id>)
    requires forall i :: 0 <= i < |members| ==> (members[i].id in t1 <==> members[i].id in t2)
    ensures Joining(members, t1) == Joining(members, t2)
  {
    if |members| > 0 {
      assert members[0].id in t1 <==> members[0].id in t2;
      JoiningSameTracked(members[1..], t1, t2);
    }
  }

  lemma KeptSnoc(m0: map<Id, Invite>, k: Id, v: Invite, n: map<Id, Invite>)
    ensures Kept(m0[k := v], n) == if k in n then Kept(m0, n)[k := n[k]] else Kept(m0, n)
  {
  }

  lemma WithJoinersSnoc(m: map<Id, Invite>, n0: map<Id, Invite>, k: Id, v: Invite)
    requires k !in n0
    ensures WithJoiners(if k !in m && v != "" then m[k := v] else m, n0) == WithJoiners(m, n0[k := v])
  {
    var n := n0[k := v];
    if k !in m && v != "" {
      assert Joiners(m[k := v], n0) == Joiners(m, n0);
      assert Joiners(m, n) == Joiners(m, n0)[k := v];
      assert k !in Joiners(m, n0);
      assert m[k := v] + Joiners(m, n0) == m + Joiners(m, n0)[k := v];
    } else {
      assert Joiners(m, n) == Joiners(m, n0);
    }
  }

  lemma AfterFullListSplit(m: map<Id, Invite>, n: map<Id, Invite>)
    ensures WithJoiners(Kept(m, n), n) == AfterFullList(m, n)
  {
    var lhs := WithJoiners(Kept(m, n), n);
    var rhs := AfterFullList(m, n);
    assert lhs.Keys == rhs.Keys;
  }

  /** The first loop keeps exactly the tracked ids that `members` still
      lists, each with its member invite. */
  lemma {:induction false} SyncTrackedMap(users: seq<User>, members: seq<User>)
    requires Distinct(users)
    ensures AsMap(SyncTracked(users, members).users) == Kept(AsMap(users), AsMap(members))
    decreases |users|
  {
    if |users| > 0 {
      var init := users[..|users| - 1];
      var u := users[|users| - 1];
      var n := AsMap(members);
      DistinctInit(users);
      SyncTrackedMap(init, members);
      var rest := SyncTracked(init, members);
      FindUserInMap(members, u.id);
      KeptSnoc(AsMap(init), u.id, u.invite, n);
      match FindUser(members, u.id)
      case None =>
      case Some(j) =>
        var last := User(u.id, members[j].invite);
        assert (rest.users + [last])[..|rest.users|] == rest.users;
    }
  }

  /** The first loop reports removals from the last tracked user to the
      first. */
  lemma {:induction false} SyncTrackedRemoved(users: seq<User>, members: seq<User>)
    ensures SyncTracked(users, members).removed == Reverse(Departed(users, AsMap(members).Keys))
    decreases |users|
  {
    if |users| > 0 {
      var init := users[..|users| - 1];
      var u := users[|users| - 1];
      var n := AsMap(members);
      assert users == init + [u];
      SyncTrackedRemoved(init, members);
      FindUserInMap(members, u.id);
      DepartedSnoc(init, u, n.Keys);
      var gone := if u.id in n then [] else [u.invite];
      ReverseConcat(Departed(init, n.Keys), gone);
      assert Reverse(gone) == gone;
    }
  }

  /** The first loop reports swaps from the last tracked user to the first. */
  lemma {:induction false} SyncTrackedSwapped(users: seq<User>, members: seq<User>)
    ensures SyncTracked(users, members).swapped == Reverse(Reswapped(users, AsMap(members)))
    decreases |users|
  {
    if |users| > 0 {
      var init := users[..|users| - 1];
      var u := users[|users| - 1];
      var n := AsMap(members);
      assert users == init + [u];
      SyncTrackedSwapped(init, members);
      FindUserInMap(members, u.id);
      ReswappedSnoc(init, u, n);
      var sw := if u.id in n && n[u.id] != u.invite then [Swap(u.id, u.invite, n[u.id])] else [];
      ReverseConcat(Reswapped(init, n), sw);
      assert Reverse(sw) == sw;
    }
  }

  /** With one entry per member id, the second loop adds exactly the
      untracked members that have a truthy invite. */
  lemma {:induction false} AddUntrackedMap(users: seq<User>, members: seq<User>)
    requires Distinct(users) && Distinct(members)
    ensures AsMap(AddUntracked(users, members).users) == WithJoiners(AsMap(users), AsMap(members))
    decreases |members|
  {
    var m := AsMap(users);
    if |members| == 0 {
      assert WithJoiners(m, AsMap(members)) == m;
    } else {
      var pre := members[..|members| - 1];
      var mem := members[|members| - 1];
      DistinctInit(members);
      AsMapKeys(pre);
      FindUserInMap(users, mem.id);
      var users1 := if Joins(users, mem) then users + [mem] else users;
      assert Distinct(users1) by {
        if Joins(users, mem) {
          AsMapKeys(users);
          DistinctSnoc(users, mem);
        }
      }
      assert AsMap(users1) == if mem.id !in m && mem.invite != "" then m[mem.id := mem.invite] else m by {
        if Joins(users, mem) {
          assert (users + [mem])[..|users|] == users;
        }
      }
      AddUntrackedMap(users1, pre);
      WithJoinersSnoc(m, AsMap(pre), mem.id, mem.invite);
    }
  }

  /** The second loop reports additions from the last member to the first. */
  lemma {:induction false} AddUntrackedAdded(users: seq<User>, members: seq<User>)
    requires Distinct(members)
    ensures AddUntracked(users, members).added == Reverse(Joining(members, Ids(users)))
    decreases |members|
  {
    if |members| > 0 {
      var pre := members[..|members| - 1];
      var mem := members[|members| - 1];
      assert members == pre + [mem];
      DistinctInit(members);
      FindUserInMap(users, mem.id);
      AsMapKeys(users);
      var users1 := if Joins(users, mem) then users + [mem] else users;
      AddUntrackedAdded(users1, pre);
      JoiningSnoc(pre, mem, Ids(users));
      var j := if mem.id !in Ids(users) && mem.invite != "" then [mem.invite] else [];
      ReverseConcat(Joining(pre, Ids(users)), j);
      assert Reverse(j) == j;
      IdsSnoc(users, mem);
      forall i | 0 <= i < |pre| ensures pre[i].id in Ids(users1) <==> pre[i].id in Ids(users) {
        assert pre[i] in pre;
      }
      JoiningSameTracked(pre, Ids(users1), Ids(users));
    }
  }

  /** One `parseGroupListResponse` on a group: the cursor, the time and
      (when `members` is present) the user sync; the delta it records. */
  datatype Absorbed = Absorbed(group: Group, delta: Delta)

  function ParseGroupList(g: Group, events: int, members: Option<seq<User>>, time: int): (r: Absorbed)
    ensures r.group.next == events + 1 && r.group.lastUpdate == time
    ensures members.None? ==> r.group.users == g.users && r.delta == NoDelta
    ensures Distinct(g.users) ==> Distinct(r.group.users)
    ensures r.group.name == g.name && r.group.demo == g.demo && r.group.loaded == g.loaded
    ensures r.group.account == g.account
  {
    var g1 := g.(next := events + 1, lastUpdate := time);
    match members
    case None => Absorbed(g1, NoDelta)
    case Some(ms) =>
      var s := SyncTracked(g.users, ms);
      var a := AddUntracked(s.users, ms);
      Absorbed(g1.(users := a.users), Delta(a.added, s.removed, s.swapped))
  }

  /** The membership after a full list (with one entry per member id): a
      tracked id stays exactly when the list still names it, and then takes
      the listed invite, even a falsy one; an untracked id joins exactly
      when its listed invite is truthy. Removals and swaps are reported
      from the last tracked user to the first, additions from the last
      member to the first. */
  lemma FullListMeaning(g: Group, events: int, members: seq<User>, time: int)
    requires Distinct(g.users) && Distinct(members)
    ensures var r := ParseGroupList(g, events, Some(members), time);
      && AsMap(r.group.users) == AfterFullList(AsMap(g.users), AsMap(members))
      && r.delta.removed == Reverse(Departed(g.users, AsMap(members).Keys))
      && r.delta.swapped == Reverse(Reswapped(g.users, AsMap(members)))
      && r.delta.added == Reverse(Joining(members, Ids(g.users)))
  {
    var n := AsMap(members);
    var s := SyncTracked(g.users, members);
    SyncTrackedMap(g.users, members);
    SyncTrackedRemoved(g.users, members);
    SyncTrackedSwapped(g.users, members);
    AddUntrackedMap(s.users, members);
    AddUntrackedAdded(s.users, members);
    AfterFullListSplit(AsMap(g.users), n);
    AsMapKeys(s.users);
    AsMapKeys(g.users);
    AsMapKeys(members);
    forall i | 0 <= i < |members| ensures members[i].id in Ids(s.users) <==> members[i].id in Ids(g.users) {
      assert members[i] in members;
    }
    JoiningSameTracked(members, Ids(s.users), Ids(g.users));
  }

  // ---------------------------------------------------------------------
  // Responses and requests
  // ---------------------------------------------------------------------

  /** `o.members` of a response body: an events body has none. */
  function MembersOf(resp: Response): Option<seq<User>>
  {
    match resp
    case GroupList(_, ms) => ms
    case EventList(_, _) => None
  }

  /** The state change and delta of an events or full-list update response
      (before `loaded` is set). */
  function AbsorbUpdate(g: Group, result: FetchResult): (r: Absorbed)
    ensures !result.status ==> r == Absorbed(g, NoDelta)
    ensures result.status ==> r.group.lastUpdate == result.time
    ensures result.status && result.response.EventList? ==>
      r.group.next == (if result.response.events != 0 then result.response.events + 1 else 0)
    ensures result.status && result.response.GroupList? ==> r.group.next == result.response.events + 1
    ensures Distinct(g.users) ==> Distinct(r.group.users)
    ensures r.group.name == g.name && r.group.demo == g.demo && r.group.account == g.account
  {
    if !result.status then Absorbed(g, NoDelta)
    else
      match result.response
      case GroupList(events, members) => ParseGroupList(g, events, members, result.time)
      case EventList(events, items) =>
        var t := ApplyItems(g.users, items);
        assert Distinct(g.users) ==> Distinct(t.users) by {
          if Distinct(g.users) {
            ApplyItemsMeaning(g.users, items);
          }
        }
        Absorbed(g.(next := if events != 0 then events + 1 else 0, lastUpdate := result.time, users := t.users),
                 t.delta)
  }

  /** `sendStatus`: a `GroupStatus` only for a delta that changed something. */
  function StatusNotices(name: string, time: int, d: Delta): (r: seq<Notice>)
    ensures |r| <= 1
    ensures r != [] <==> Changed(d)
    ensures forall i :: 0 <= i < |r| ==> r[i] == GroupStatus(name, time, d)
  {
    if Changed(d) then [GroupStatus(name, time, d)] else []
  }

  /** A group after a step and the messages it sent to its controller. */
  datatype GroupStep = GroupStep(group: Group, notices: seq<Notice>)

  /** What the initial response reports: the full-list delta when it
      succeeded, nothing otherwise. */
  function InitialDelta(g: Group, result: FetchResult): Delta
  {
    if result.status then ParseGroupList(g, result.response.events, MembersOf(result.response), result.time).delta
    else NoDelta
  }

  /** `processGroupInitial`: the response to the initial fetch, a demo
      fixture or a header passed to `setData`. */
  function ProcessInitial(g: Group, result: FetchResult): (r: GroupStep)
    ensures r.group.loaded
    ensures result.status ==>
      r.group == ParseGroupList(g, result.response.events, MembersOf(result.response), result.time).group.(loaded := true)
    ensures Changed(InitialDelta(g, result)) ==>
      |r.notices| == 2 && r.notices[0] == GroupStatus(g.name, result.time, InitialDelta(g, result))
    ensures !Changed(InitialDelta(g, result)) ==> |r.notices| == 1
    ensures |r.notices| >= 1 && r.notices[|r.notices| - 1] ==
      GroupLoaded(g.name, result.status, result.time,
                  if Changed(InitialDelta(g, result)) then Some(InitialDelta(g, result)) else None)
    ensures |r.notices| >= 1 && r.notices[|r.notices| - 1].GroupLoaded?
    ensures |r.notices| == 2 ==> r.notices[0].GroupStatus? && Changed(r.notices[0].delta)
    ensures |r.notices| <= 2
    ensures !result.status ==> r.notices == [GroupLoaded(g.name, false, result.time, None)]
    ensures !result.status ==> r.group == g.(loaded := true)
    ensures result.status ==> r.group.next == result.response.events + 1 && r.group.lastUpdate == result.time
    ensures Distinct(g.users) ==> Distinct(r.group.users)
    ensures r.group.name == g.name && r.group.demo == g.demo && r.group.account == g.account
  {
    var a := if result.status
             then ParseGroupList(g, result.response.events, MembersOf(result.response), result.time)
             else Absorbed(g, NoDelta);
    var reported := if Changed(a.delta) then Some(a.delta) else None;
    GroupStep(a.group.(loaded := true),
              StatusNotices(g.name, result.time, a.delta) + [GroupLoaded(g.name, result.status, result.time, reported)])
  }

  /** `processGroupUpdate`: the response to an events fetch. */
  function ProcessUpdate(g: Group, result: FetchResult): (r: GroupStep)
    ensures r.group == AbsorbUpdate(g, result).group.(loaded := true)
    ensures r.notices != [] <==> Changed(AbsorbUpdate(g, result).delta)
    ensures |r.notices| <= 1 && forall i :: 0 <= i < |r.notices| ==> r.notices[i].GroupStatus?
    ensures !result.status ==> r.notices == [] && r.group.users == g.users
    ensures r.notices == StatusNotices(g.name, result.time, AbsorbUpdate(g, result).delta)
    ensures Distinct(g.users) ==> Distinct(r.group.users)
    ensures r.group.name == g.name && r.group.demo == g.demo && r.group.account == g.account
  {
    var a := AbsorbUpdate(g, result);
    GroupStep(a.group.(loaded := true), StatusNotices(g.name, result.time, a.delta))
  }

  /** A successful initial full list: the membership becomes the reference
      full-list membership, and a `GroupStatus` before the `GroupLoaded`
      reports the departed, re-invited and joining members exactly when
      there are any. */
  lemma InitialLoadMeaning(g: Group, events: int, members: seq<User>, time: int)
    requires Distinct(g.users) && Distinct(members)
    ensures var r := ProcessInitial(g, FetchResult(true, GroupList(events, Some(members)), time));
      var d := Delta(Reverse(Joining(members, Ids(g.users))),
                     Reverse(Departed(g.users, AsMap(members).Keys)),
                     Reverse(Reswapped(g.users, AsMap(members))));
      var changed := Joining(members, Ids(g.users)) != [] || Departed(g.users, AsMap(members).Keys) != []
                     || Reswapped(g.users, AsMap(members)) != [];
      && r.group.loaded && r.group.next == events + 1
      && AsMap(r.group.users) == AfterFullList(AsMap(g.users), AsMap(members))
      && (changed <==> |r.notices| == 2)
      && (changed ==> r.notices[0] == GroupStatus(g.name, time, d))
      && r.notices[|r.notices| - 1] == GroupLoaded(g.name, true, time, if changed then Some(d) else None)
  {
    var result := FetchResult(true, GroupList(events, Some(members)), time);
    FullListMeaning(g, events, members, time);
    var p := ParseGroupList(g, events, Some(members), time);
    assert InitialDelta(g, result) == p.delta;
    assert p.delta == Delta(p.delta.added, p.delta.removed, p.delta.swapped);
  }

  /** A successful events response: the membership is every event applied
      in order, and the single `GroupStatus`, if any, carries each member's
      last event judged against the membership before the response. */
  lemma UpdateMeaning(g: Group, events: int, items: seq<Item>, time: int)
    requires Distinct(g.users)
    ensures var r := ProcessUpdate(g, FetchResult(true, EventList(events, items), time));
      && r.group.loaded
      && AsMap(r.group.users) == UpdateMapAll(AsMap(g.users), items)
      && r.notices == StatusNotices(g.name, time, EventDelta(AsMap(g.users), LastEvents(items)))
  {
    ApplyItemsMeaning(g.users, items);
  }

  /** What `request()` did: whether the group answered by itself (a demo
      group, never polled) and the work it started. */
  datatype Requested = Requested(handled: bool, effects: seq<Effect>)

  predicate IsFetch(e: Effect)
  {
    e.FetchInitial? || e.FetchEvents?
  }

  /** `requestGroup`: until it is loaded, a demo group schedules its
      fixture on every call; it never fetches. Another group fetches the
      full list until it is loaded and the events after its cursor
      afterwards. */
  function Request(g: Group): (r: Requested)
    ensures r.handled <==> g.demo
    ensures g.demo ==> forall i :: 0 <= i < |r.effects| ==> !IsFetch(r.effects[i])
    ensures g.demo ==> r.effects == if g.loaded then [] else [ScheduleDemoLoad(g.name, DemoLoadDelayMs)]
    ensures !g.demo && !g.loaded ==> r.effects == [FetchInitial(g.name, true, g.account)]
    ensures !g.demo && g.loaded ==> r.effects == [FetchEvents(g.name, g.next, g.account)]
  {
    if !g.loaded then
      if g.demo then Requested(true, [ScheduleDemoLoad(g.name, DemoLoadDelayMs)])
      else Requested(false, [FetchInitial(g.name, true, g.account)])
    else if g.demo then Requested(true, [])
    else Requested(false, [FetchEvents(g.name, g.next, g.account)])
  }

  /** An unknown member who is invited, leaves and is invited again within
      one events response is reported once, as added with the last invite. */
  lemma RejoinWithinOneResponse()
    ensures
      var items := [Item(InviteItem, "m1", "X"), Item(LeaveItem, "m1", ""), Item(InviteItem, "m1", "Y")];
      ApplyItems([], items) == Tracked([User("m1", "Y")], Delta(["Y"], [], []))
  {
    var i1, i2, i3 := Item(InviteItem, "m1", "X"), Item(LeaveItem, "m1", ""), Item(InviteItem, "m1", "Y");
    var items := [i1, i2, i3];
    assert items[..2] == [i1, i2] && [i1, i2][..1] == [i1] && [i1][..0] == [];
    assert Compress([i1]) == [i1];
    assert Compress([i1, i2]) == [i2];
    assert Compress(items) == [i3];
    assert FindUser([], "m1") == None;
  }
}

=== FILE: public_group_controller.dfy ===
/** The registry of public groups (adapter/PublicGroupController.js): adds
    deferred until an account is known, duplicate-name rejection, the
    shared poll timer, logout, message forwarding and the org-objects
    side request.

    The timer is a flag with start/stop effects; fetches are effects whose
    results come back as `Input`s. */
module PublicGroupController {
  import opened Common
  import PG = PublicGroup

  const PollIntervalMs := 15000

  /** The reserved org id that has a canned answer. */
  const DemoOrgId := -999

  const OrgIdError := "\"orgId\" request param must be specified!"

  /** An `addGroup` argument: a bare group name, or a group header fetched
      beforehand (an object with `name`, `events` and `members`). */
  datatype GroupInfo =
    | Name(name: string)
    | Header(name: string, events: int, members: Option<seq<PG.User>>)

  /** `getOrgObjects` parameters; an absent or zero `orgId` is falsy. */
  datatype OrgRequest = OrgRequest(orgId: Option<int>, objType: Option<string>)

  /** The payload of an `OrgObjects` message. */
  datatype OrgPayload =
    | OrgError(error: string)
    | OrgFixture(orgId: int)
    | OrgFetched(status: bool, body: string)

  /** Messages the registry sends to its owning controller. */
  datatype Outbound =
    | GroupNotice(notice: PG.Notice)
    | OrgObjects(payload: OrgPayload)

  datatype Effect =
    | GroupEffect(effect: PG.Effect)
    | StartTimer(intervalMs: int)
    | StopTimer
    | FetchOrgObjects(orgId: int, objType: Option<string>, account: Option<string>)
    | Notify(msg: Outbound)

  /** Messages `notify` understands; `GroupForward` carries the messages a
      group sends through the registry. */
  datatype Message =
    | AccountLoginStatus(account: Option<string>)
    | AccountDeleteStatus
    | GroupForward(notice: PG.Notice)
    | UnknownMessage(name: string)

  datatype Command =
    | AddGroup(info: GroupInfo)
    | GetOrgObjects(params: Option<OrgRequest>)
    | UnknownCommand(name: string)

  /** Completions of work started earlier: a group's initial fetch or demo
      fixture, a group's events fetch, a poll tick, an org-objects fetch. */
  datatype Completion =
    | InitialResult(group: string, result: PG.FetchResult)
    | UpdateResult(group: string, result: PG.FetchResult)
    | TimerTick
    | OrgResult(status: bool, body: string)

  datatype Registry = Registry(
    account: Option<string>,
    timerOn: bool,
    groups: map<string, PG.Group>,
    groupsToLoad: seq<GroupInfo>,
    pollGroups: seq<string>)

  datatype Step = Step(registry: Registry, effects: seq<Effect>)

  /** The registry as constructed: the configured account, nothing loaded. */
  function Init(account: Option<string>): (r: Registry)
    ensures Valid(r) && !r.timerOn && r.groups == map[] && r.groupsToLoad == []
    ensures r.account == account && r.pollGroups == []
  {
    Registry(account, false, map[], [], [])
  }

  /** What every reachable registry satisfies: polled names are registered
      groups, each polled once; a running timer means something is polled;
      every group tracks distinct user ids. */
  predicate Valid(r: Registry)
  {
    && (forall i :: 0 <= i < |r.pollGroups| ==> r.pollGroups[i] in r.groups)
    && (forall i, j :: 0 <= i < j < |r.pollGroups| ==> r.pollGroups[i] != r.pollGroups[j])
    && (r.timerOn ==> |r.pollGroups| > 0)
    && (forall n :: n in r.groups ==> r.groups[n].name == n && PG.Distinct(r.groups[n].users))
  }

  function GroupEffects(es: seq<PG.Effect>): (r: seq<Effect>)
    ensures |r| == |es| && forall i :: 0 <= i < |es| ==> r[i] == GroupEffect(es[i])
  {
    if |es| == 0 then [] else [GroupEffect(es[0])] + GroupEffects(es[1..])
  }

  function Notices(ns: seq<PG.Notice>): (r: seq<Effect>)
    ensures |r| == |ns| && forall i :: 0 <= i < |ns| ==> r[i] == Notify(GroupNotice(ns[i]))
  {
    if |ns| == 0 then [] else [Notify(GroupNotice(ns[0]))] + Notices(ns[1..])
  }

  /** Appends a group to the poll list, starting the timer when the list
      goes from empty to one entry. */
  function StartPolling(r: Registry, name: string): (s: Step)
    ensures s.registry == r.(pollGroups := r.pollGroups + [name], timerOn := r.timerOn || |r.pollGroups| == 0)
    ensures s.effects == if |r.pollGroups| == 0 then [StartTimer(PollIntervalMs)] else []
    ensures Valid(r) && name in r.groups && name !in r.pollGroups ==> Valid(s.registry)
  {
    var r' := r.(pollGroups := r.pollGroups + [name]);
    if |r'.pollGroups| == 1 then Step(r'.(timerOn := true), [StartTimer(PollIntervalMs)])
    else Step(r', [])
  }

  /** Records a new group under its name; it is not polled yet. */
  function Register(r: Registry, g: PG.Group): (s: Registry)
    requires Valid(r) && g.name !in r.groups && PG.Distinct(g.users)
    ensures Valid(s) && g.name !in s.pollGroups
    ensures s == r.(groups := r.groups[g.name := g])
    ensures s.groups.Keys == r.groups.Keys + {g.name}
  {
    r.(groups := r.groups[g.name := g])
  }

  /** `loadGroup`: a known name changes nothing; a header seeds the new
      group without a request and polls it; a bare name requests the group
      and polls it unless the request was answered locally (demo). */
  function LoadGroup(r: Registry, info: GroupInfo, now: int): (s: Step)
    requires Valid(r)
    ensures Valid(s.registry)
    ensures info.name in r.groups ==> s == Step(r, [])
    ensures info.name !in r.groups ==> s.registry.groups.Keys == r.groups.Keys + {info.name}
    ensures forall n :: n in r.groups ==> n in s.registry.groups && s.registry.groups[n] == r.groups[n]
    ensures s.registry.account == r.account && s.registry.groupsToLoad == r.groupsToLoad
    ensures (StartTimer(PollIntervalMs) in s.effects) <==> |r.pollGroups| == 0 && |s.registry.pollGroups| == 1
    ensures |s.registry.pollGroups| >= |r.pollGroups| && r.pollGroups <= s.registry.pollGroups
    ensures |r.pollGroups| > 0 ==> s.registry.timerOn == r.timerOn
    ensures info.name !in r.groups && info.Header? ==>
      var st := PG.ProcessInitial(PG.NewGroup(info.name, r.account),
                                  PG.FetchResult(true, PG.GroupList(info.events, info.members), now));
      && s.registry.groups == r.groups[info.name := st.group]
      && s.registry.pollGroups == r.pollGroups + [info.name]
      && s.effects == Notices(st.notices) + (if |r.pollGroups| == 0 then [StartTimer(PollIntervalMs)] else [])
    ensures info.name !in r.groups && info.Name? && PG.IsDemoName(info.name) ==>
      && s.registry.groups == r.groups[info.name := PG.NewGroup(info.name, r.account)]
      && s.registry.pollGroups == r.pollGroups && s.registry.timerOn == r.timerOn
      && s.effects == [GroupEffect(PG.ScheduleDemoLoad(info.name, PG.DemoLoadDelayMs))]
    ensures info.name !in r.groups && info.Name? && !PG.IsDemoName(info.name) ==>
      && s.registry.groups == r.groups[info.name := PG.NewGroup(info.name, r.account)]
      && s.registry.pollGroups == r.pollGroups + [info.name]
      && |s.effects| >= 1 && s.effects[0] == GroupEffect(PG.FetchInitial(info.name, true, r.account))
  {
    if info.name in r.groups then Step(r, [])
    else if info.Header? then LoadHeader(r, info, now)
    else LoadName(r, info.name)
  }

  /** A group that arrives with its header is seeded from the header's
      member list as a completed initial load and then polled. */
  function LoadHeader(r: Registry, info: GroupInfo, now: int): (s: Step)
    requires Valid(r) && info.Header? && info.name !in r.groups
    ensures Valid(s.registry)
    ensures var st := PG.ProcessInitial(PG.NewGroup(info.name, r.account),
                                        PG.FetchResult(true, PG.GroupList(info.events, info.members), now));
      && s.registry == r.(groups := r.groups[info.name := st.group],
                          pollGroups := r.pollGroups + [info.name],
                          timerOn := r.timerOn || |r.pollGroups| == 0)
      && s.effects == Notices(st.notices) + (if |r.pollGroups| == 0 then [StartTimer(PollIntervalMs)] else [])
    ensures (StartTimer(PollIntervalMs) in s.effects) <==> |r.pollGroups| == 0
    ensures s.registry.groups.Keys == r.groups.Keys + {info.name}
    ensures forall n :: n in r.groups ==> s.registry.groups[n] == r.groups[n]
  {
    var st := PG.ProcessInitial(PG.NewGroup(info.name, r.account),
                                PG.FetchResult(true, PG.GroupList(info.events, info.members), now));
    var p := StartPolling(Register(r, st.group), info.name);
    Step(p.registry, Notices(st.notices) + p.effects)
  }

  /** A group known only by name is registered empty; a demo group schedules
      its fixture and is never polled, any other group fetches its initial
      member list and joins the poll list. */
  function LoadName(r: Registry, name: string): (s: Step)
    requires Valid(r) && name !in r.groups
    ensures Valid(s.registry)
    ensures PG.IsDemoName(name) ==>
      && s.registry == r.(groups := r.groups[name := PG.NewGroup(name, r.account)])
      && s.effects == [GroupEffect(PG.ScheduleDemoLoad(name, PG.DemoLoadDelayMs))]
    ensures !PG.IsDemoName(name) ==>
      && s.registry == r.(groups := r.groups[name := PG.NewGroup(name, r.account)],
                          pollGroups := r.pollGroups + [name],
                          timerOn := r.timerOn || |r.pollGroups| == 0)
      && s.effects == [GroupEffect(PG.FetchInitial(name, true, r.account))]
                      + (if |r.pollGroups| == 0 then [StartTimer(PollIntervalMs)] else [])
    ensures (StartTimer(PollIntervalMs) in s.effects) <==> !PG.IsDemoName(name) && |r.pollGroups| == 0
    ensures s.registry.groups.Keys == r.groups.Keys + {name}
    ensures forall n :: n in r.groups ==> s.registry.groups[n] == r.groups[n]
  {
    var g := PG.NewGroup(name, r.account);
    var rq := PG.Request(g);
    var r1 := Register(r, g);
    if rq.handled then Step(r1, GroupEffects(rq.effects))
    else
      var p := StartPolling(r1, name);
      Step(p.registry, GroupEffects(rq.effects) + p.effects)
  }

  /** Loads the queued adds one after the other, first queued first. */
  function LoadAll(r: Registry, infos: seq<GroupInfo>, now: int): (s: Step)
    requires Valid(r)
    ensures Valid(s.registry)
    ensures s.registry.account == r.account && s.registry.groupsToLoad == r.groupsToLoad
    ensures forall n :: n in r.groups ==> n in s.registry.groups && s.registry.groups[n] == r.groups[n]
    ensures forall i :: 0 <= i < |infos| ==> infos[i].name in s.registry.groups
    ensures |s.registry.pollGroups| >= |r.pollGroups| && r.pollGroups <= s.registry.pollGroups
    ensures |r.pollGroups| > 0 ==> s.registry.timerOn == r.timerOn && StartTimer(PollIntervalMs) !in s.effects
    decreases |infos|
  {
    if |infos| == 0 then Step(r, [])
    else
      var first := LoadGroup(r, infos[0], now);
      var rest := LoadAll(first.registry, infos[1..], now);
      assert forall i :: 1 <= i < |infos| ==> infos[i] == infos[1..][i - 1];
      Step(rest.registry, first.effects + rest.effects)
  }

  /** `cmd`. */
  function Cmd(r: Registry, c: Command, now: int): (s: Step)
    requires Valid(r)
    ensures Valid(s.registry)
    ensures c.AddGroup? && !Truthy(r.account) ==>
      s == Step(r.(groupsToLoad := r.groupsToLoad + [c.info]), [])
    ensures c.AddGroup? && Truthy(r.account) ==> s == LoadGroup(r, c.info, now)
    ensures c.UnknownCommand? ==> s == Step(r, [])
    ensures c.GetOrgObjects? ==> s == Step(r, OrgObjectsRequest(r.account, c.params))
  {
    match c
    case AddGroup(info) =>
      if Truthy(r.account) then LoadGroup(r, info, now)
      else Step(r.(groupsToLoad := r.groupsToLoad + [info]), [])
    case GetOrgObjects(params) => Step(r, OrgObjectsRequest(r.account, params))
    case UnknownCommand(_) => Step(r, [])
  }

  /** `getOrgObjects`: a missing `orgId` is answered with an error, the demo
      org id with its fixture, any other id with a fetch. */
  function OrgObjectsRequest(account: Option<string>, params: Option<OrgRequest>): (es: seq<Effect>)
    ensures |es| == 1
    ensures (params.None? || params.value.orgId.None? || params.value.orgId.value == 0)
      <==> es == [Notify(OrgObjects(OrgError(OrgIdError)))]
    ensures params.Some? && params.value.orgId == Some(DemoOrgId) ==> es == [Notify(OrgObjects(OrgFixture(DemoOrgId)))]
    ensures es[0].FetchOrgObjects? <==>
      params.Some? && params.value.orgId.Some? && params.value.orgId.value !in {0, DemoOrgId}
    ensures es[0].FetchOrgObjects? ==> es[0].orgId == params.value.orgId.value && es[0].account == account
    ensures es[0].FetchOrgObjects? ==>
      es[0].objType == if Truthy(params.value.objType) then params.value.objType else None
  {
    if params.None? || params.value.orgId.None? || params.value.orgId.value == 0 then
      [Notify(OrgObjects(OrgError(OrgIdError)))]
    else if params.value.orgId.value == DemoOrgId then
      [Notify(OrgObjects(OrgFixture(DemoOrgId)))]
    else
      var objType := if Truthy(params.value.objType) then params.value.objType else None;
      [FetchOrgObjects(params.value.orgId.value, objType, account)]
  }

  /** `notify`: login replays the queued adds when the account is truthy,
      logout drops the account and stops the timer, group messages are
      forwarded, anything else is ignored. */
  function NotifyMsg(r: Registry, m: Message, now: int): (s: Step)
    requires Valid(r)
    ensures Valid(s.registry)
    ensures m.AccountLoginStatus? ==> s.registry.account == m.account
    ensures m.AccountLoginStatus? && Truthy(m.account) ==>
      (&& s.registry.groupsToLoad == []
       && forall i :: 0 <= i < |r.groupsToLoad| ==> r.groupsToLoad[i].name in s.registry.groups)
    ensures m.AccountLoginStatus? && Truthy(m.account) ==>
      var loaded := LoadAll(r.(account := m.account), r.groupsToLoad, now);
      && s.registry == loaded.registry.(groupsToLoad := [])
      && s.effects == loaded.effects
      && (forall n :: n in r.groups ==> n in s.registry.groups && s.registry.groups[n] == r.groups[n])
      && r.pollGroups <= s.registry.pollGroups
      && (|r.pollGroups| > 0 ==> s.registry.timerOn == r.timerOn)
    ensures m.AccountLoginStatus? && !Truthy(m.account) ==> s == Step(r.(account := m.account), [])
    ensures m.AccountDeleteStatus? ==>
      s.registry == r.(account := None, timerOn := false) && s.effects == (if r.timerOn then [StopTimer] else [])
    ensures m.GroupForward? ==> s == Step(r, [Notify(GroupNotice(m.notice))])
    ensures m.UnknownMessage? ==> s == Step(r, [])
  {
    match m
    case AccountLoginStatus(account) =>
      var r1 := r.(account := account);
      if !Truthy(account) then Step(r1, [])
      else
        var loaded := LoadAll(r1, r.groupsToLoad, now);
        Step(loaded.registry.(groupsToLoad := []), loaded.effects)
    case AccountDeleteStatus =>
      Step(r.(account := None, timerOn := false), if r.timerOn then [StopTimer] else [])
    case GroupForward(notice) => Step(r, [Notify(GroupNotice(notice))])
    case UnknownMessage(_) => Step(r, [])
  }

  /** Every name in `names` is a key of `groups` holding the group of that name. */
  predicate Known(groups: map<string, PG.Group>, names: seq<string>)
  {
    forall i :: 0 <= i < |names| ==> names[i] in groups && groups[names[i]].name == names[i]
  }

  /** `makeGroupRequests`: every polled group's request, in poll order. */
  function PollRequests(groups: map<string, PG.Group>, names: seq<string>): (es: seq<Effect>)
    requires Known(groups, names)
    ensures forall k :: 0 <= k < |es| ==> es[k].GroupEffect? && es[k].effect.group in names
    ensures forall k :: 0 <= k < |es| && PG.IsFetch(es[k].effect) ==> !groups[es[k].effect.group].demo
    ensures forall i :: 0 <= i < |names| && !groups[names[i]].demo ==>
      exists k :: 0 <= k < |es| && PG.IsFetch(es[k].effect) && es[k].effect.group == names[i]
    decreases |names|
  {
    if |names| == 0 then []
    else
      var g := groups[names[0]];
      var head := GroupEffects(PG.Request(g).effects);
      var tail := PollRequests(groups, names[1..]);
      RequestWork(g);
      assert forall i :: 1 <= i < |names| ==> names[i] == names[1..][i - 1];
      assert forall k :: 0 <= k < |tail| ==> (head + tail)[|head| + k] == tail[k];
      assert forall k :: 0 <= k < |head| ==> (head + tail)[k] == head[k];
      head + tail
  }

  /** The poll work of two lists of groups is the work of the first list
      followed by that of the second. */
  lemma {:induction false} PollRequestsConcat(groups: map<string, PG.Group>, a: seq<string>, b: seq<string>)
    requires Known(groups, a) && Known(groups, b)
    ensures Known(groups, a + b)
    ensures PollRequests(groups, a + b) == PollRequests(groups, a) + PollRequests(groups, b)
    decreases |a|
  {
    assert forall i :: 0 <= i < |a + b| ==> (a + b)[i] == if i < |a| then a[i] else b[i - |a|];
    if |a| > 0 {
      assert (a + b)[0] == a[0] && (a + b)[1..] == a[1..] + b;
      PollRequestsConcat(groups, a[1..], b);
    } else {
      assert a + b == b;
    }
  }

  /** A tick polls the groups in list order, one block of request work per
      polled group: the work of `names[i]` comes after that of every
      earlier name and before that of every later one. */
  lemma PollRequestsInOrder(groups: map<string, PG.Group>, names: seq<string>, i: nat)
    requires Known(groups, names) && i < |names|
    ensures Known(groups, names[..i]) && Known(groups, names[i + 1..])
    ensures PollRequests(groups, names) ==
      PollRequests(groups, names[..i]) + GroupEffects(PG.Request(groups[names[i]]).effects) + PollRequests(groups, names[i + 1..])
  {
    var pre, one, post := names[..i], [names[i]], names[i + 1..];
    KnownSlices(groups, names, i);
    PollRequestsSingle(groups, names[i]);
    PollRequestsConcat(groups, one, post);
    PollRequestsConcat(groups, pre, one + post);
    var a, b, c := PollRequests(groups, pre), PollRequests(groups, one), PollRequests(groups, post);
    assert PollRequests(groups, names) == a + (b + c);
    assert a + (b + c) == a + b + c;
  }

  lemma PollRequestsSingle(groups: map<string, PG.Group>, n: string)
    requires n in groups && groups[n].name == n
    ensures Known(groups, [n])
    ensures PollRequests(groups, [n]) == GroupEffects(PG.Request(groups[n]).effects)
  {
    assert [n][1..] == [];
    assert PollRequests(groups, []) == [];
  }

  lemma KnownSlices(groups: map<string, PG.Group>, names: seq<string>, i: nat)
    requires Known(groups, names) && i < |names|
    ensures Known(groups, names[..i]) && Known(groups, [names[i]]) && Known(groups, names[i + 1..])
    ensures names == names[..i] + ([names[i]] + names[i + 1..])
  {
    assert names[..i + 1] == names[..i] + [names[i]];
    assert names == names[..i + 1] + names[i + 1..];
  }

  /** A group's own request work names the group, and fetches exactly when
      the group is not a demo group. */
  lemma RequestWork(g: PG.Group)
    ensures var es := GroupEffects(PG.Request(g).effects);
      && (forall k :: 0 <= k < |es| ==> es[k].GroupEffect? && es[k].effect.group == g.name)
      && (forall k :: 0 <= k < |es| && PG.IsFetch(es[k].effect) ==> !g.demo)
      && (!g.demo ==> |es| > 0 && PG.IsFetch(es[0].effect))
  {
  }

  /** Routes a completion to the group it belongs to (or to the owner). */
  function Complete(r: Registry, c: Completion): (s: Step)
    requires Valid(r)
    ensures Valid(s.registry)
    ensures c.TimerTick? ==> s.registry == r
    ensures c.TimerTick? && !r.timerOn ==> s.effects == []
    ensures c.TimerTick? && r.timerOn ==> s.effects == PollRequests(r.groups, r.pollGroups)
    ensures s.registry.groups.Keys == r.groups.Keys && s.registry.pollGroups == r.pollGroups
    ensures s.registry.account == r.account && s.registry.timerOn == r.timerOn
    ensures (c.InitialResult? || c.UpdateResult?) && c.group !in r.groups ==> s == Step(r, [])
    ensures c.InitialResult? && c.group in r.groups ==>
      var st := PG.ProcessInitial(r.groups[c.group], c.result);
      s.registry.groups == r.groups[c.group := st.group] && s.effects == Notices(st.notices)
    ensures c.UpdateResult? && c.group in r.groups ==>
      var st := PG.ProcessUpdate(r.groups[c.group], c.result);
      s.registry.groups == r.groups[c.group := st.group] && s.effects == Notices(st.notices)
    ensures c.OrgResult? ==> s == Step(r, [Notify(OrgObjects(OrgFetched(c.status, c.body)))])
  {
    match c
    case InitialResult(name, result) =>
      if name !in r.groups then Step(r, [])
      else
        var st := PG.ProcessInitial(r.groups[name], result);
        Step(r.(groups := r.groups[name := st.group]), Notices(st.notices))
    case UpdateResult(name, result) =>
      if name !in r.groups then Step(r, [])
      else
        var st := PG.ProcessUpdate(r.groups[name], result);
        Step(r.(groups := r.groups[name := st.group]), Notices(st.notices))
    case TimerTick =>
      if r.timerOn then Step(r, PollRequests(r.groups, r.pollGroups)) else Step(r, [])
    case OrgResult(status, body) => Step(r, [Notify(OrgObjects(OrgFetched(status, body)))])
  }

  /** The group-level work among a list of registry effects. */
  function GroupWork(es: seq<Effect>): seq<PG.Effect>
  {
    if |es| == 0 then []
    else (if es[0].GroupEffect? then [es[0].effect] else []) + GroupWork(es[1..])
  }

  lemma {:induction false} GroupWorkConcat(a: seq<Effect>, b: seq<Effect>)
    ensures GroupWork(a + b) == GroupWork(a) + GroupWork(b)
  {
    if |a| > 0 {
      assert (a + b)[0] == a[0];
      assert (a + b)[1..] == a[1..] + b;
      GroupWorkConcat(a[1..], b);
    } else {
      assert a + b == b;
    }
  }

  lemma {:induction false} GroupWorkOfGroupEffects(es: seq<PG.Effect>)
    ensures GroupWork(GroupEffects(es)) == es
  {
    if |es| > 0 {
      GroupWorkOfGroupEffects(es[1..]);
      assert GroupEffects(es)[1..] == GroupEffects(es[1..]);
    }
  }

  /** One initial fetch per queued name, in queue order, on behalf of `account`. */
  function InitialFetches(infos: seq<GroupInfo>, account: Option<string>): (es: seq<PG.Effect>)
  {
    seq(|infos|, i requires 0 <= i < |infos| => PG.FetchInitial(infos[i].name, true, account))
  }

  /** Queued adds of new, distinct, non-demo bare names. */
  predicate FreshQueue(r: Registry, infos: seq<GroupInfo>)
  {
    && (forall i :: 0 <= i < |infos| ==> infos[i].Name? && infos[i].name !in r.groups && !PG.IsDemoName(infos[i].name))
    && (forall i, j :: 0 <= i < j < |infos| ==> infos[i].name != infos[j].name)
  }

  /** A fresh bare non-demo name starts exactly its initial fetch. */
  lemma LoadGroupFreshWork(r: Registry, info: GroupInfo, now: int)
    requires Valid(r) && info.Name? && info.name !in r.groups && !PG.IsDemoName(info.name)
    ensures GroupWork(LoadGroup(r, info, now).effects) == [PG.FetchInitial(info.name, true, r.account)]
  {
    var g := PG.NewGroup(info.name, r.account);
    var p := StartPolling(r.(groups := r.groups[info.name := g]), info.name);
    var fetch := GroupEffects([PG.FetchInitial(info.name, true, r.account)]);
    assert LoadGroup(r, info, now).effects == fetch + p.effects;
    GroupWorkConcat(fetch, p.effects);
    GroupWorkOfGroupEffects([PG.FetchInitial(info.name, true, r.account)]);
    assert GroupWork(p.effects) == [] by {
      if |p.effects| > 0 {
        assert p.effects == [StartTimer(PollIntervalMs)];
        assert p.effects[1..] == [];
      }
    }
  }

  lemma FreshQueueTail(r: Registry, infos: seq<GroupInfo>, now: int)
    requires Valid(r) && FreshQueue(r, infos) && |infos| > 0
    ensures FreshQueue(LoadGroup(r, infos[0], now).registry, infos[1..])
  {
    var keys := LoadGroup(r, infos[0], now).registry.groups.Keys;
    assert keys == r.groups.Keys + {infos[0].name};
    var tail := infos[1..];
    forall i | 0 <= i < |tail|
      ensures tail[i].Name? && tail[i].name !in keys && !PG.IsDemoName(tail[i].name)
    {
      assert tail[i] == infos[i + 1];
    }
  }

  lemma InitialFetchesCons(infos: seq<GroupInfo>, account: Option<string>)
    requires |infos| > 0
    ensures InitialFetches(infos, account)
         == [PG.FetchInitial(infos[0].name, true, account)] + InitialFetches(infos[1..], account)
  {
  }

  /** Loading a queue of fresh names starts exactly one initial fetch per
      name, first queued first, and nothing else at group level. */
  lemma {:induction false} LoadAllFetchesInOrder(r: Registry, infos: seq<GroupInfo>, now: int)
    requires Valid(r) && FreshQueue(r, infos)
    ensures GroupWork(LoadAll(r, infos, now).effects) == InitialFetches(infos, r.account)
    decreases |infos|
  {
    if |infos| > 0 {
      var first := LoadGroup(r, infos[0], now);
      var rest := LoadAll(first.registry, infos[1..], now);
      LoadGroupFreshWork(r, infos[0], now);
      FreshQueueTail(r, infos, now);
      LoadAllFetchesInOrder(first.registry, infos[1..], now);
      assert LoadAll(r, infos, now).effects == first.effects + rest.effects;
      GroupWorkConcat(first.effects, rest.effects);
      InitialFetchesCons(infos, r.account);
    }
  }

  /** Adds made before login are held; a login with a truthy account then
      issues exactly one initial fetch per held name, in the order the adds
      were made, on behalf of that account. */
  lemma DeferredAddsFetchOnLogin(r: Registry, account: Option<string>, now: int)
    requires Valid(r) && Truthy(account) && FreshQueue(r, r.groupsToLoad)
    ensures GroupWork(NotifyMsg(r, AccountLoginStatus(account), now).effects) == InitialFetches(r.groupsToLoad, account)
  {
    LoadAllFetchesInOrder(r.(account := account), r.groupsToLoad, now);
  }

  /** Logout stops the timer but keeps the poll list, so neither a later
      login nor a later add starts the timer again. */
  lemma LogoutStopsPollingForGood(r: Registry, account: Option<string>, info: GroupInfo, now: int)
    requires Valid(r) && |r.pollGroups| > 0
    ensures
      var s1 := NotifyMsg(r, AccountDeleteStatus, now);
      var s2 := NotifyMsg(s1.registry, AccountLoginStatus(account), now);
      var s3 := Cmd(s2.registry, AddGroup(info), now);
      && !s3.registry.timerOn
      && StartTimer(PollIntervalMs) !in s1.effects + s2.effects + s3.effects
  {
  }
}
